=== FILE: README.md ===
# Cuboid and point annotation tools, modelled in Dafny

This project models three sequential pieces of the annotation package of labelU-Kit:

- **Cuboid face geometry** (`CuboidUtils.ts`). The front face is an axis-aligned rectangle
  built from an `x/y/width/height` box. The back face is rebuilt from a dragged depth edge
  `{top, bottom}`. The two right-hand side lines are intersected first. When they do not
  meet, the fallback is an exact translation that keeps the width. When they do meet, a second
  intersection fixes the left edge, and the function returns nothing if that one fails.
- **The cuboid tool controller** (`cuboidOperation.ts`). Its drawing state machine runs
  Ready → FirstPoint → Cuboid → Ready on primary releases. It also covers drag arming from the
  first proximity hit, the Start/Move/Wait drag lifecycle, and pointer-move dispatch (drag
  first, then drawing, then hover). Selection, deletion and replace-by-id complete it.
- **The point tool controller** (`pointOperation.ts`). It covers guarded point creation
  (image, upper limit, image bounds, 0.2 minimum spacing), first-match hover, and
  select-or-delete on a secondary release. A drag records history only after a real move.
  Undo, redo and Tab cycling are refused while a drag is in progress.

Coordinates are exact `real`s. Every controller state is an immutable record, and every
handler is a pure function from the old state to the new one. Notifications sent to the host
(`emit`) and history pushes are append-only logs inside the state. Helpers whose code is not
part of this model are handled in two ways:

- Some become function parameters: the line-intersection routine,
  `getCuboidDragMove` and `getPointsByBottomRightPoint`.
- The others become fields of the per-event input record, holding what they report for that
  event: `getHoverID`, `returnClosePointOrLineInCuboid`, `uuid`, `getAllToolsMaxOrder`, the
  zoom conversions, edge adsorption, marker lookup and the dependency-shape tests.

The properties therefore hold for every implementation of those helpers. A concrete
intersection routine (Cramer's rule) is included and proved sound.

Files, one module each:

- `wrappers.dfy`: `Option`.
- `lists.dfy`: `filter`, `find` and predicate-restricted `map`, with their lemmas.
- `geometry.dfy`: points, lines, faces, the cross product, Cramer intersection and the `Zoom` type.
- `annotation.dfy`: drag status, drag target, event names.
- `cuboid_utils.dfy`: the face geometry.
- `cuboid_operation.dfy`: the cuboid tool.
- `point_operation.dfy`: the point tool.

Naming notes:

- The source's `EDrawingStatus.Cuboid` is `CuboidStage`, because `Cuboid` already names the record.
- The point field `label` is `markerLabel`, because `label` is a Dafny keyword.
- The point tool's `hoverID` and `selectedID` are `Option<string>`. The source compares them
  with `===`, where `undefined` and `''` differ, so the model keeps the two apart.
  `Truthy` stands for JavaScript truthiness: present and non-empty.

## Model

| member | source | states |
|---|---|---|
| Geometry.CramerIntersection | packages/annotation/src/utils/tool/CuboidUtils.ts:42 | a line intersection that reports no point exactly when the two directions are parallel, and whose reported point lies on both lines |
| CuboidUtils.GetFrontCoordinate | packages/annotation/src/utils/tool/CuboidUtils.ts:3-22 | the front face is axis-aligned, has top-left `(x, y)`, and spans `width` across and `height` down |
| CuboidUtils.GetBackCoordinate | packages/annotation/src/utils/tool/CuboidUtils.ts:24-138 | any returned back face has the dragged edge as its right edge (`topRight == top`, `bottomRight == bottom`), the left corners keep the `y` of `top`/`bottom`, and the top and bottom edges have equal horizontal extent. The four side lines join matching front and back corners in the order bottomRight, topRight, bottomLeft, topLeft. The parallel path always returns the exact width-preserving translation and is the only path that attaches the front face. On the non-parallel path no face comes back exactly when the second intersection is absent; otherwise back `bottomLeft.x` is that intersection's `x` |
| CuboidUtils.BackBottomLeftOnVanishingLine | packages/annotation/src/utils/tool/CuboidUtils.ts:88-117 | with a sound intersection routine and a non-zero front width, the non-parallel back bottom-left corner is exactly the second intersection, so it lies on the line from the front bottom-left corner to the vanishing point |
| CuboidUtils.EqualHeightEdgeTranslatesFront | packages/annotation/src/utils/tool/CuboidUtils.ts:32-65 | a depth edge as tall as the front face makes the right-hand side lines parallel under Cramer's rule, and the back face is then the front face translated by `bottom − frontBottomRight` |
| Lists.Filter | packages/annotation/src/core/toolOperation/cuboidOperation.ts:136 | `filter` keeps exactly the elements satisfying the predicate and never lengthens the list |
| Lists.FilterAppend | packages/annotation/src/core/toolOperation/cuboidOperation.ts:136 | `filter` distributes over concatenation, so the survivors keep their relative order |
| Lists.FindWhere | packages/annotation/src/core/toolOperation/cuboidOperation.ts:84 | `find` returns the first element satisfying the predicate, or nothing when no element does |
| Lists.MapWhere | packages/annotation/src/core/toolOperation/cuboidOperation.ts:104-109 | a conditional `map` keeps the length, rewrites the matching entries and leaves the others as they were |
| CuboidOperation.SelectedCuboid | packages/annotation/src/core/toolOperation/cuboidOperation.ts:83-85 | the selected cuboid is the first list entry carrying the selected id; there is none exactly when no entry carries it |
| CuboidOperation.UpdateSelectedCuboid | packages/annotation/src/core/toolOperation/cuboidOperation.ts:103-110 | only entries whose id is `selectedID` are replaced; the length, every other entry and every other field stay the same |
| CuboidOperation.SetCuboidList | packages/annotation/src/core/toolOperation/cuboidOperation.ts:123-130 | the list is replaced, and `updatePageNumber` is emitted exactly when the length changes |
| CuboidOperation.DeleteCuboid | packages/annotation/src/core/toolOperation/cuboidOperation.ts:132-141 | the empty id changes nothing; any other id removes exactly the entries with that id and clears the selection, emits `updatePageNumber` exactly when entries were removed, and changes nothing else (the drawing and the drag are left alone) |
| CuboidOperation.OnRightDblClick | packages/annotation/src/core/toolOperation/cuboidOperation.ts:114-121 | when the hovered id equals a non-empty `selectedID` the result is exactly the deletion of the selected cuboid; otherwise nothing changes |
| CuboidOperation.DragTargetOf | packages/annotation/src/core/toolOperation/cuboidOperation.ts:177-203 | the target is Point or Line exactly when the first hit's type is `point` or `line`, carrying that hit's positions; otherwise it is the whole cuboid with no positions |
| CuboidOperation.OnMouseDown | packages/annotation/src/core/toolOperation/cuboidOperation.ts:143-204 | a press arms a drag only when it is not consumed or forbidden, ctrl is not held, a cuboid is selected, the button is not right, it is not space+left, and the hover id is the selected id; otherwise nothing changes. An armed drag is in `Start`, snapshots the selected cuboid and the press coordinate, and takes its target from the first hit |
| CuboidOperation.CreateNewDrawingCuboid | packages/annotation/src/core/toolOperation/cuboidOperation.ts:371-409 | without an image nothing changes; otherwise the drawing cuboid has all four front corners at the click, the fresh id, `valid = !ctrlKey`, the next order, the default attribute, the basic source id and an empty text attribute, `firstClickCoord` is the click and the status is FirstPoint |
| CuboidOperation.CloseNewDrawingFrontPlane | packages/annotation/src/core/toolOperation/cuboidOperation.ts:415-417 | only the status changes, to the back-plane stage |
| CuboidOperation.CloseCuboid | packages/annotation/src/core/toolOperation/cuboidOperation.ts:419-425 | the drawing cuboid is appended at the end and selected, the drawing is cleared and the status is Ready; no event is emitted |
| CuboidOperation.RightMouseUp | packages/annotation/src/core/toolOperation/cuboidOperation.ts:427-434 | a non-empty hover id becomes the selection; an empty one leaves the state unchanged |
| CuboidOperation.OnMouseUp | packages/annotation/src/core/toolOperation/cuboidOperation.ts:206-253 | a handled release ends a drag only when `dragInfo` is set and the status is Move: it clears `dragInfo`, sets Wait and emits `updateResult`, with no drawing step. Any other release keeps the drag fields and takes the primary drawing step, the secondary selection step, or none |
| CuboidOperation.AnchoredRect | packages/annotation/src/core/toolOperation/cuboidOperation.ts:286-306 | the rebuilt front face has `tl` at the first click, is axis-aligned with `tr.x ≥ tl.x` and `bl.y ≥ tl.y`, and spans `|dx|` by `|dy|` |
| CuboidOperation.DrawingFrontPlanesMove | packages/annotation/src/core/toolOperation/cuboidOperation.ts:283-311 | the move is taken (and reported as taken) exactly when a drawing cuboid and a first click exist in FirstPoint; then only the front face changes, to the rectangle anchored at the first click; otherwise nothing changes |
| CuboidOperation.DrawingBackPlaneMove | packages/annotation/src/core/toolOperation/cuboidOperation.ts:313-327 | in the back-plane stage the back face becomes the helper's face for the cursor and the front face; in any other stage nothing changes |
| CuboidOperation.DragOffset | packages/annotation/src/core/toolOperation/cuboidOperation.ts:338-341 | the offset times the zoom is the cursor's displacement from the drag start |
| CuboidOperation.OnDragMove | packages/annotation/src/core/toolOperation/cuboidOperation.ts:329-350 | with a drag and a selection, the status becomes Move and the transform of the snapshot by the zoom-normalised offset replaces exactly the selected entries. Other entries and the length are unchanged, and so is the list when the transform gives nothing |
| CuboidOperation.OnHoverMove | packages/annotation/src/core/toolOperation/cuboidOperation.ts:352-369 | with a selected cuboid the proximity hits become the highlight; without one nothing changes |
| CuboidOperation.OnMouseMove | packages/annotation/src/core/toolOperation/cuboidOperation.ts:255-281 | dispatch priority: with a selection and a drag the move is a drag move. Otherwise, while drawing, the move is the front-face move when that reports itself taken and the back-plane move otherwise; hover, list and drag status stay as they were, and a FirstPoint move rebuilds the anchored front face. Otherwise only the hover id (and the highlight) change |
| CuboidOperation.HandlersKeepDrawingConsistent | packages/annotation/src/core/toolOperation/cuboidOperation.ts:206-281 | every pointer handler keeps "a drawing cuboid exists exactly when the status is not Ready, and then the first click is recorded" |
| CuboidOperation.ReleaseAdvancesDrawing | packages/annotation/src/core/toolOperation/cuboidOperation.ts:225-247 | with no moving drag, a handled primary release steps the status one place round Ready → FirstPoint → Cuboid → Ready; only the last step changes the list, by appending exactly the drawing cuboid and selecting it |
| CuboidOperation.DrawOneCuboid | packages/annotation/src/core/toolOperation/cuboidOperation.ts:143-325 | from Ready with no drag, three clicks (press and release) with a move between each pair, no press landing on the selected cuboid: exactly one cuboid is appended, with the fresh id of the first click, the front rectangle spanned by the first click and the first move, and the back face from the second move; it is selected and the tool is Ready again |
| CuboidOperation.DragIsGestureRelative | packages/annotation/src/core/toolOperation/cuboidOperation.ts:329-350 | drag moves do not accumulate: while the snapshot is the selected cuboid, `getCuboidDragMove` keeps the snapshot's id, and the later move's transform returns a cuboid, that move after any earlier move of the same gesture yields exactly the state of a single move from the snapshot |
| CuboidOperation.DeleteKeepsOrder | packages/annotation/src/core/toolOperation/cuboidOperation.ts:132-141 | deletion preserves the order of the survivors (it distributes over concatenation) and deleting the same id twice is deleting it once |
| CuboidOperation.CommitKeepsIdsUnique | packages/annotation/src/core/toolOperation/cuboidOperation.ts:419-425 | committing a cuboid with a fresh id keeps the list's ids unique |
| CuboidOperation.DragKeepsIdsUnique | packages/annotation/src/core/toolOperation/cuboidOperation.ts:103-110 | while the snapshot is the selected cuboid and `getCuboidDragMove` keeps the snapshot's id, a drag move keeps the list's ids unique |
| CuboidOperation.DeleteKeepsIdsUnique | packages/annotation/src/core/toolOperation/cuboidOperation.ts:132-141 | deletion keeps the list's ids unique |
| CuboidOperation.SelectThenDeleteCuboid | packages/annotation/src/core/toolOperation/cuboidOperation.ts:114-121 | a secondary release over a cuboid selects it without touching the list; a secondary double-click over the same cuboid then removes exactly the entries with its id and clears the selection |
| CuboidOperation.ArmedDragOverwritesOtherCuboid | packages/annotation/src/core/toolOperation/cuboidOperation.ts:206-253 | from `[A, B]` with A selected: a press on A arms a drag, a secondary release over B selects B and keeps A's snapshot, and the next move writes a copy of A over B, so the list no longer has unique ids |
| CuboidOperation.ClickOnSelectionKeepsDragging | packages/annotation/src/core/toolOperation/cuboidOperation.ts:143-273 | a press and primary release on the selected cuboid, with no move between, leave the drag armed in Start and also start a drawing in FirstPoint; the next move is a drag move (status Move) and leaves the new drawing as it was |
| CuboidOperation.CommitOnSelectionOverwritesNewCuboid | packages/annotation/src/core/toolOperation/cuboidOperation.ts:143-273 | when the click that commits a drawing lands on the selected cuboid, the release commits and selects the new cuboid while the old snapshot stays armed; the next move writes a copy of the old cuboid over the new one, so the old id appears twice |
| CuboidOperation.OnMouseUpEndingDrag | packages/annotation/src/core/toolOperation/cuboidOperation.ts:206-253 | the corrected release: every handled release leaves no drag armed; with no drag, or a moved one, it is the release as written, and otherwise it changes the list and selection exactly as the release as written |
| CuboidOperation.CorrectedHandlersKeepDragOnSelection | packages/annotation/src/core/toolOperation/cuboidOperation.ts:143-281 | with the corrected release, press, release, move and secondary double-click all keep the drag snapshot on the selected cuboid |
| CuboidOperation.CorrectedMovesKeepIdsUnique | packages/annotation/src/core/toolOperation/cuboidOperation.ts:255-350 | while the snapshot is on the selection and `getCuboidDragMove` keeps ids, every pointer move keeps the list's ids unique |
| PointOperation.DrawOutsideTarget | packages/annotation/src/core/toolOperation/pointOperation.ts:63-66 | the effective setting is `drawOutsideTarget` when present, else the legacy `drawPointOut` |
| PointOperation.SetPointList | packages/annotation/src/core/toolOperation/pointOperation.ts:128-141 | the list is replaced; `updatePageNumber` is emitted exactly when the length changes and `updateResult` exactly when uploading |
| PointOperation.SetSelectedID | packages/annotation/src/core/toolOperation/pointOperation.ts:223-239 | the selection becomes the given id and `selectedChange` is emitted |
| PointOperation.SetDefaultAttribute | packages/annotation/src/core/toolOperation/pointOperation.ts:160-193 | an unchanged attribute changes nothing. A new one is stored and announced; with a truthy selection the selected points take it and the list goes to history, while every other point and the history otherwise stay as they were |
| PointOperation.GetHoverId | packages/annotation/src/core/toolOperation/pointOperation.ts:549-559 | the hover id is that of the first point, in list order, within `(style.width + 2)/zoom` of the cursor; there is none exactly when no point is within that radius |
| PointOperation.InPointIsRadiusTest | packages/annotation/src/core/toolOperation/pointOperation.ts:549-552 | the squared marker test agrees with `(style.width + 2) / zoom >= sqrt(dx² + dy²)` for every distance `d ≥ 0` with `d² = dx² + dy²` |
| PointOperation.TooCloseIsDistanceTest | packages/annotation/src/core/toolOperation/pointOperation.ts:406-413 | the squared spacing test agrees with `length(zoom·p, zoom·c) < 0.2` for every length `d ≥ 0` whose square is the zoomed squared distance |
| PointOperation.IsMinDistanceIsSome | packages/annotation/src/core/toolOperation/pointOperation.ts:406-413 | `isMinDistance` holds exactly when some existing point's zoomed distance to the coordinate is below 0.2 |
| PointOperation.CreateCoordinate | packages/annotation/src/core/toolOperation/pointOperation.ts:426-449 | a new point goes to the adsorption drop foot when there is one, otherwise to the cursor |
| PointOperation.AddPoint | packages/annotation/src/core/toolOperation/pointOperation.ts:541-545 | the point is appended at the end, becomes both hovered and selected, the new list is pushed to history, and `updatePageNumber` then `selectedChange` are emitted |
| PointOperation.CreatePoint | packages/annotation/src/core/toolOperation/pointOperation.ts:415-546 | the list, history, selection and hover are unchanged with no image, with the upper limit reached by both page and list, outside the image or dependency when drawing outside is `false`, within 0.2 (zoomed) of an existing point, or with markers exhausted. Otherwise exactly one point is appended, at the create coordinate, with the fresh id, `valid = !ctrlKey`, the next order, the default attribute and the marker label; it becomes hovered and selected, and the new list goes to history |
| PointOperation.RightMouseUp | packages/annotation/src/core/toolOperation/pointOperation.ts:561-584 | when `selectedID === hoverID` the points with that id are removed, the list goes to history, selection and hover become `''`, and `updatePageNumber` (only if the length changed) then `selectedChange` are emitted. Otherwise the hovered id is selected and the first hovered point's attribute (or `''`) becomes the default. If that attribute is new and the hover id truthy, the hovered points take it and the list goes to history; otherwise the list and history are unchanged. The events are `selectedChange`, then `changeAttributeSidebar` if the attribute is new, then `markIndexChange` if the hovered point's label gives a marker index, which is then stored |
| PointOperation.DeletePoint | packages/annotation/src/core/toolOperation/pointOperation.ts:656-664 | with no truthy selection nothing changes. Otherwise exactly the selected points are removed, the list goes to history, `updatePageNumber` is emitted exactly when points were removed and then `selectedChange`, and nothing else changes (the selection is kept) |
| PointOperation.OnMouseDown | packages/annotation/src/core/toolOperation/pointOperation.ts:271-299 | a primary press with no hover creates a point, unless there is no image or the out-of-boundary refusal applies. A primary press with `hoverID === selectedID` sets Start. Anything else changes nothing |
| PointOperation.OnDragMove | packages/annotation/src/core/toolOperation/pointOperation.ts:333-368 | with an image the status becomes Move. Only the `x`/`y` of points carrying the selected id change, to the drag coordinate; when the dependency polygon refuses the move, only the status changes |
| PointOperation.OnMouseMove | packages/annotation/src/core/toolOperation/pointOperation.ts:301-316 | a handled move recomputes the hover; it is a drag move exactly while the status is Start or Move |
| PointOperation.OnMouseUp | packages/annotation/src/core/toolOperation/pointOperation.ts:318-331 | a handled release runs the secondary-release step on the right button (its list, selection, hover, events, marker index, default attribute and history are the result's; that step can itself push history through `setDefaultAttribute`), then pushes the list to history once more only if the status was Move, and always leaves the status Wait |
| PointOperation.UndoAndRedo | packages/annotation/src/core/toolOperation/pointOperation.ts:667-682 | refused (no change) in Start or Move. Otherwise the restored list replaces the current one and the selection survives only if the restored list holds the selected id; the events are `selectedChange` when the selection is cleared, `updatePageNumber` when the length differs and `updateResult` when a list was restored, and nothing else changes |
| PointOperation.OnTabKeyDown | packages/annotation/src/core/toolOperation/pointOperation.ts:586-615 | refused in Start or Move; otherwise the next id, if any, becomes the selection with one `selectedChange`, and nothing else changes |
| PointOperation.CreateKeepsSpacing | packages/annotation/src/core/toolOperation/pointOperation.ts:406-413 | creating a point keeps every pair of points at least 0.2 (zoomed) apart |
| PointOperation.DragLifecycle | packages/annotation/src/core/toolOperation/pointOperation.ts:271-682 | a press on the hovered selected point, one move and a release: Start, then Move with exactly the selected points moved to the drag coordinate, then Wait with the moved list pushed to history once. Undo, redo and Tab are no-ops in between |
| PointOperation.ClickWithoutMoveRecordsNothing | packages/annotation/src/core/toolOperation/pointOperation.ts:271-331 | with an image and mouse operation allowed, a primary press on the hovered point when it is the (truthy) selection, followed by a primary release with no move between, leaves the list and the history unchanged and the status Wait |
| PointOperation.SelectThenDelete | packages/annotation/src/core/toolOperation/pointOperation.ts:561-584 | two secondary releases over one unselected hovered point first select it, then remove every point with its id and clear selection and hover; every other point survives unchanged |

## Left out

- Rendering (`render`, `renderSingleCuboid`, `renderHover`, `renderPoint`, `renderTop`, the draw
  calls and the canvas): side effects with nothing to state beyond call order.
- The DOM text editor (`TextAttributeClass`, `renderTextAttribute`, `getCurrentSelectedData`,
  `updateSelectedTextAttribute`, `textChange`), the style change in `setDefaultAttribute`,
  and the text-attribute calls in `setSelectedID` and `deletePoint`. They only affect widgets.
- Coordinate conversion, zoom and pan (`getCoordinateUnderZoom`, `getCoordinateInOrigin`,
  `AxisUtils.*`): the converted coordinates are inputs. The 0.2 spacing test takes
  `changePointByZoom(p, zoom)` to scale by `zoom`. `AxisUtils.changePointByZoom` is not part of this model.
- `getCoordinateUnderZoom` is not part of this model. So the image-bounds test in `createPoint`
  uses the under-zoom coordinate as written, while the new point is stored at the origin
  coordinate. The two are separate inputs and the model does not relate them.
- `lineIntersection`, `getCuboidDragMove`, `getPointsByBottomRightPoint`, `getHoverID` /
  `getHoverPolygonID`, `getCuboidHoverRange`, `returnClosePointOrLineInCuboid`,
  `getRenderResultList`, `getAllToolsMaxOrder`, `getNextMarker`, `getCurrentMarkerIndex`,
  `getNextSelectedRectID`, `getTextAttribute`, `getClosestPoint`, `RectUtils.isInRect`,
  `PolygonUtils.isInPolygon`, `isPointOutOfBoundary` and `uuid` are not part of this model.
  They are parameters or per-event inputs, and properties are stated for every behaviour of them.
- The history store's own stack (`undo`/`redo` return values are inputs); pushes are logged.
  The cuboid tool keeps no history: its history calls are TODO comments in the source.
- The base class (`BasicToolOperation`) handlers: their "consumed" result is a boolean input;
  `forbidMouseOperation`, `isSpaceKey` and `imgInfo` are inputs.
- Locale message text and `console.log`: a message is logged only as its event kind.
- `setResult`, `clearResult`, `setConfig`, `clearActiveStatus`, `setBasicResult`, the marker
  index setters and `onKeyDown`'s key-to-attribute mapping: plumbing around the modelled operations.
- Floating point: IEEE rounding, `NaN` and `Math.sqrt` are replaced by exact reals and squared
  distances. A zero or negative zoom is excluded by the `Zoom` type.
- CuboidOperation.CloseCuboid: requires a drawing cuboid, which its only caller guarantees. The
  source would push `undefined` without one.
- CuboidOperation.DragIsGestureRelative, CuboidOperation.DragKeepsIdsUnique and
  CuboidOperation.CorrectedMovesKeepIdsUnique: assume that `getCuboidDragMove` returns a cuboid
  with the snapshot's id. Its code is not part of this model.
- PointOperation: point records and history snapshots are values. The source updates points in
  place (`point.attribute = …`, `point.x = …`) and pushes the live `pointList` array to
  history. Whether `pushHistory` copies it is not visible here, so the model's claim that
  earlier history entries never change holds only if it does.
- CuboidOperation: the cuboid list is a value too. The source's `closeCuboid` pushes into the
  stored array in place, and `setCuboidList` stores the caller's array itself, so a caller
  holding that array sees the commit. The model does not track that sharing.
- CuboidOperation.OnHoverMove: stores the hits as present even when the helper would return
  `undefined`, which the render code treats the same as an empty list.

## Findings

| source | as written | input that shows it | evidently intended | confidence | as-written member | corrected member |
|---|---|---|---|---|---|---|
| packages/annotation/src/core/toolOperation/cuboidOperation.ts:210-252 | a release ends a drag only once it has moved; an armed, unmoved drag survives the release, and a secondary release then changes the selection under the old snapshot | a press and primary release on the selected cuboid, then a move: the move drags the cuboid while a drawing has started; or, with `[A, B]` and A selected, a press on A, a secondary release over B, then a move: B is overwritten by a copy of A; or the click that commits a drawing lands on the selected cuboid A, then a move: the new cuboid is overwritten by a copy of A | every release ends the drag, so the snapshot always belongs to the selected cuboid and ids stay unique | medium, not executed | CuboidOperation.ClickOnSelectionKeepsDragging, CuboidOperation.ArmedDragOverwritesOtherCuboid, CuboidOperation.CommitOnSelectionOverwritesNewCuboid | CuboidOperation.OnMouseUpEndingDrag |

The rest of the model keeps the release as written (`OnMouseUp`). The corrected release is
proved to keep the drag snapshot on the selection (`CorrectedHandlersKeepDragOnSelection`).
Under that invariant, moves keep ids unique (`CorrectedMovesKeepIdsUnique`).

=== FILE: annotation.dfy ===
/** Constants shared by the annotation tools: drag status and drag target (`EDragStatus`,
    `EDragTarget`), and the names of the notifications a tool emits to its host. */
module Annotation {

  /** The lifecycle of one drag gesture. */
  datatype DragStatus = Start | Move | Wait

  /** What part of a cuboid a drag moves: one vertex, one edge, or the whole shape. */
  datatype DragTarget = PointTarget | LineTarget | CuboidTarget

  /** The host notifications (`emit(...)`) the modelled operations send, in order. */
  datatype Event =
    | UpdatePageNumber
    | UpdateResult
    | SelectedChange
    | ChangeAttributeSidebar
    | MarkIndexChange
    | MessageInfo
    | MessageSuccess

  /** A drag is in progress (the press armed it, or it has already moved). */
  predicate Dragging(status: DragStatus) {
    status == Start || status == Move
  }
}

=== FILE: cuboid_operation.dfy ===
/** The cuboid tool's controller: the drawing state machine (Ready, first point, back plane),
    drag arming and the drag lifecycle, pointer-move dispatch, selection and deletion.
    State is an immutable record and every handler is a pure transition. What the handlers
    learn from helpers not modelled here (hit tests, proximity queries, coordinate
    conversion, fresh ids, the next order number) arrives in the `Pointer` input; the two
    geometry helpers the handlers call are function parameters in `Env`. */
module CuboidOperation {
  import opened Wrappers
  import opened Geometry
  import opened Lists
  import opened Annotation
  import opened CuboidUtils

  /** `EDrawingStatus`; `CuboidStage` is the source's `Cuboid` value (back plane pending). */
  datatype DrawingStatus = Ready | FirstPoint | CuboidStage

  datatype Cuboid = Cuboid(
    id: string,
    sourceID: string,
    attribute: string,
    valid: bool,
    order: int,
    textAttribute: string,
    frontPoints: Plane,
    backPoints: Option<Plane>)

  datatype PlaneSide = FrontPlane | BackPlane

  /** One corner of one face, as named by a proximity hit. */
  datatype Position = Position(side: PlaneSide, corner: Corner)

  /** A proximity-query result: its kind is `"point"`, `"line"`, or anything else. */
  datatype HighlightEntry = HighlightEntry(kind: string, points: seq<Point>, originCuboid: Cuboid, positions: seq<Position>)

  /** The snapshot a drag works from: every move is applied to `initCuboid`, never to the
      live shape. */
  datatype DragInfo = DragInfo(dragStartCoord: Point, initCuboid: Cuboid, dragTarget: DragTarget, positions: Option<seq<Position>>)

  datatype State = State(
    cuboidList: seq<Cuboid>,
    selectedID: string,
    hoverID: string,
    drawingCuboid: Option<Cuboid>,
    firstClickCoord: Option<Point>,
    drawingStatus: DrawingStatus,
    dragInfo: Option<DragInfo>,
    dragStatus: DragStatus,
    highlightInfo: Option<seq<HighlightEntry>>,
    events: seq<Event>)

  /** The tool's surroundings. `dragMove` is `getCuboidDragMove` (offset, snapshot, target,
      positions) and `backPlane` is `getPointsByBottomRightPoint` (cursor, front face). */
  datatype Env = Env(
    imgLoaded: bool,
    forbidMouseOperation: bool,
    isSpaceKey: bool,
    zoom: Zoom,
    defaultAttribute: string,
    sourceID: string,
    dragMove: (Point, Cuboid, DragTarget, Option<seq<Position>>) -> Option<Cuboid>,
    backPlane: (Point, Plane) -> Plane)

  /** One pointer event together with what the unmodelled helpers report for it:
      `superConsumed` is the base class handler's result, `hoverID` is `getHoverID`,
      `closeHits` is `returnClosePointOrLineInCuboid` against the selected cuboid,
      `freshID` is `uuid` and `maxOrder` is `getAllToolsMaxOrder`. */
  datatype Pointer = Pointer(
    button: int,
    ctrlKey: bool,
    underZoom: Point,
    inOrigin: Point,
    superConsumed: bool,
    hoverID: string,
    closeHits: seq<HighlightEntry>,
    freshID: string,
    maxOrder: int)

  const LeftButton: int := 0
  const RightButton: int := 2

  /** The tool as constructed: nothing drawn, nothing selected. */
  const Initial: State := State([], "", "", None, None, Ready, None, Wait, None, [])

  function HasId(id: string): Cuboid -> bool {
    (c: Cuboid) => c.id == id
  }

  function LacksId(id: string): Cuboid -> bool {
    (c: Cuboid) => c.id != id
  }

  /** The drawing cuboid exists exactly while a drawing is under way, and then the first
      click is recorded. */
  predicate DrawingConsistent(s: State) {
    && (s.drawingCuboid.None? <==> s.drawingStatus == Ready)
    && (s.drawingCuboid.Some? ==> s.firstClickCoord.Some?)
  }

  /** The first cuboid whose id is the selected id. */
  function SelectedCuboid(s: State): (r: Option<Cuboid>)
    ensures r.Some? ==> r.value in s.cuboidList && r.value.id == s.selectedID
    ensures r.Some? ==> exists i :: 0 <= i < |s.cuboidList| && s.cuboidList[i] == r.value
                                   && forall j :: 0 <= j < i ==> s.cuboidList[j].id != s.selectedID
    ensures r.None? <==> forall c :: c in s.cuboidList ==> c.id != s.selectedID
  {
    FindWhere(s.cuboidList, HasId(s.selectedID))
  }

  /** Replaces every entry carrying the selected id by `newCuboid`. */
  function UpdateSelectedCuboid(s: State, newCuboid: Cuboid): (r: State)
    ensures |r.cuboidList| == |s.cuboidList|
    ensures forall i :: 0 <= i < |s.cuboidList| && s.cuboidList[i].id != s.selectedID ==> r.cuboidList[i] == s.cuboidList[i]
    ensures forall i :: 0 <= i < |s.cuboidList| && s.cuboidList[i].id == s.selectedID ==> r.cuboidList[i] == newCuboid
    ensures r == s.(cuboidList := r.cuboidList)
  {
    s.(cuboidList := MapWhere(s.cuboidList, HasId(s.selectedID), _ => newCuboid))
  }

  /** Replaces the list, notifying a page-number change exactly when the length changes. */
  function SetCuboidList(s: State, cuboidList: seq<Cuboid>): (r: State)
    ensures r.cuboidList == cuboidList
    ensures r.events == s.events || r.events == s.events + [UpdatePageNumber]
    ensures r.events != s.events <==> |cuboidList| != |s.cuboidList|
    ensures r == s.(cuboidList := cuboidList, events := r.events)
  {
    var events := if |s.cuboidList| != |cuboidList| then s.events + [UpdatePageNumber] else s.events;
    s.(cuboidList := cuboidList, events := events)
  }

  /** Removes every cuboid with the given id and clears the selection; the empty id removes
      nothing and changes nothing. */
  function DeleteCuboid(s: State, id: string): (r: State)
    ensures id == "" ==> r == s
    ensures id != "" ==> r.selectedID == ""
    ensures id != "" ==> forall c :: c in r.cuboidList <==> c in s.cuboidList && c.id != id
    ensures id != "" ==> r.cuboidList == Filter(s.cuboidList, LacksId(id))
    ensures r.drawingCuboid == s.drawingCuboid && r.dragInfo == s.dragInfo
    ensures id != "" ==> r == s.(cuboidList := r.cuboidList, selectedID := "", events := r.events)
    ensures id != "" ==> r.events == s.events + (if |r.cuboidList| != |s.cuboidList| then [UpdatePageNumber] else [])
  {
    if id == "" then s
    else SetCuboidList(s, Filter(s.cuboidList, LacksId(id))).(selectedID := "")
  }

  /** A secondary double-click deletes the hovered cuboid only when it is the selected one. */
  function OnRightDblClick(s: State, e: Pointer): (r: State)
    ensures s.selectedID != "" && e.hoverID == s.selectedID ==>
      && r.selectedID == ""
      && forall c :: c in r.cuboidList <==> c in s.cuboidList && c.id != s.selectedID
    ensures s.selectedID != "" && e.hoverID == s.selectedID ==> r == DeleteCuboid(s, s.selectedID)
    ensures !(s.selectedID != "" && e.hoverID == s.selectedID) ==> r == s
  {
    if s.selectedID != "" && s.selectedID == e.hoverID then DeleteCuboid(s, e.hoverID) else s
  }

  /** The drag target named by the first proximity hit: a vertex, an edge, or (no hit, or a
      hit of another kind) the whole cuboid. */
  function DragTargetOf(hits: seq<HighlightEntry>): (r: (DragTarget, Option<seq<Position>>))
    ensures r.0 == PointTarget <==> |hits| > 0 && hits[0].kind == "point"
    ensures r.0 == LineTarget <==> |hits| > 0 && hits[0].kind == "line"
    ensures r.0 == CuboidTarget <==> r.1.None?
    ensures r.1.Some? ==> |hits| > 0 && r.1.value == hits[0].positions
  {
    if |hits| > 0 && hits[0].kind == "point" then (PointTarget, Some(hits[0].positions))
    else if |hits| > 0 && hits[0].kind == "line" then (LineTarget, Some(hits[0].positions))
    else (CuboidTarget, None)
  }

  /** A primary press arms a drag exactly when none of the rejecting conditions holds. */
  predicate ArmsDrag(s: State, e: Pointer, env: Env) {
    && !e.superConsumed
    && !env.forbidMouseOperation
    && !e.ctrlKey
    && SelectedCuboid(s).Some?
    && e.button != RightButton
    && !(e.button == LeftButton && env.isSpaceKey)
    && e.hoverID == s.selectedID
  }

  function OnMouseDown(s: State, e: Pointer, env: Env): (r: State)
    ensures !ArmsDrag(s, e, env) ==> r == s
    ensures ArmsDrag(s, e, env) ==>
      && r.dragStatus == Start
      && r.dragInfo.Some?
      && r.dragInfo.value.initCuboid == SelectedCuboid(s).value
      && r.dragInfo.value.initCuboid.id == s.selectedID
      && r.dragInfo.value.dragStartCoord == e.underZoom
      && (r.dragInfo.value.dragTarget, r.dragInfo.value.positions) == DragTargetOf(e.closeHits)
      && r == s.(dragStatus := Start, dragInfo := r.dragInfo)
  {
    if e.superConsumed || env.forbidMouseOperation || e.ctrlKey then s
    else match SelectedCuboid(s)
      case None => s
      case Some(selected) =>
        if e.button == RightButton || (e.button == LeftButton && env.isSpaceKey) then s
        else if e.hoverID != s.selectedID then s
        else
          var (target, positions) := DragTargetOf(e.closeHits);
          s.(dragStatus := Start, dragInfo := Some(DragInfo(e.underZoom, selected, target, positions)))
  }

  /** Starts a drawing at the click: a front face collapsed to the click point. */
  function CreateNewDrawingCuboid(s: State, e: Pointer, env: Env): (r: State)
    ensures !env.imgLoaded ==> r == s
    ensures env.imgLoaded ==>
      var c := e.inOrigin;
      && r.drawingCuboid.Some?
      && r.drawingCuboid.value.frontPoints == Plane(c, c, c, c)
      && r.drawingCuboid.value.backPoints.None?
      && r.drawingCuboid.value.id == e.freshID
      && r.drawingCuboid.value.valid == !e.ctrlKey
      && r.drawingCuboid.value.order == e.maxOrder + 1
      && r.drawingCuboid.value.attribute == env.defaultAttribute
      && r.drawingCuboid.value.sourceID == env.sourceID
      && r.drawingCuboid.value.textAttribute == ""
      && r.firstClickCoord == Some(c)
      && r.drawingStatus == FirstPoint
      && r == s.(drawingCuboid := r.drawingCuboid, firstClickCoord := r.firstClickCoord, drawingStatus := FirstPoint)
  {
    if !env.imgLoaded then s
    else
      var c := e.inOrigin;
      var cuboid := Cuboid(e.freshID, env.sourceID, env.defaultAttribute, !e.ctrlKey, e.maxOrder + 1, "", Plane(c, c, c, c), None);
      s.(drawingCuboid := Some(cuboid), firstClickCoord := Some(c), drawingStatus := FirstPoint)
  }

  /** The front face is fixed; the back plane comes next. */
  function CloseNewDrawingFrontPlane(s: State): (r: State)
    ensures r.drawingStatus == CuboidStage
    ensures r == s.(drawingStatus := CuboidStage)
  {
    s.(drawingStatus := CuboidStage)
  }

  /** Commits the drawing cuboid: appended at the end and selected, drawing over. */
  function CloseCuboid(s: State): (r: State)
    requires s.drawingCuboid.Some?
    ensures r.cuboidList == s.cuboidList + [s.drawingCuboid.value]
    ensures r.selectedID == s.drawingCuboid.value.id
    ensures r.drawingCuboid.None? && r.drawingStatus == Ready
    ensures r.events == s.events && r.dragInfo == s.dragInfo && r.hoverID == s.hoverID
  {
    s.(cuboidList := s.cuboidList + [s.drawingCuboid.value],
       selectedID := s.drawingCuboid.value.id,
       drawingCuboid := None,
       drawingStatus := Ready)
  }

  /** A secondary release selects the hovered cuboid, if any. */
  function RightMouseUp(s: State, e: Pointer): (r: State)
    ensures e.hoverID != "" ==> r == s.(selectedID := e.hoverID)
    ensures e.hoverID == "" ==> r == s
  {
    if e.hoverID != "" then s.(selectedID := e.hoverID) else s
  }

  /** A primary release without an ending drag: advances the drawing state machine. */
  function LeftRelease(s: State, e: Pointer, env: Env): State {
    match s.drawingCuboid
    case None => CreateNewDrawingCuboid(s, e, env)
    case Some(_) =>
      match s.drawingStatus
      case FirstPoint => CloseNewDrawingFrontPlane(s)
      case CuboidStage => CloseCuboid(s)
      case Ready => s
  }

  /** A drag ends on release only after it has moved. */
  predicate EndsDrag(s: State) {
    s.dragInfo.Some? && s.dragStatus == Move
  }

  function OnMouseUp(s: State, e: Pointer, env: Env): (r: State)
    ensures e.superConsumed || env.forbidMouseOperation || !env.imgLoaded ==> r == s
    ensures !e.superConsumed && !env.forbidMouseOperation && env.imgLoaded && EndsDrag(s) ==>
      r == s.(dragInfo := None, dragStatus := Wait, events := s.events + [UpdateResult])
    ensures !e.superConsumed && !env.forbidMouseOperation && env.imgLoaded && !EndsDrag(s) ==>
      && r.dragInfo == s.dragInfo && r.dragStatus == s.dragStatus
      && (e.button == LeftButton ==> r == LeftRelease(s, e, env))
      && (e.button == RightButton ==> r == RightMouseUp(s, e))
      && (e.button != LeftButton && e.button != RightButton ==> r == s)
  {
    if e.superConsumed || env.forbidMouseOperation || !env.imgLoaded then s
    else if EndsDrag(s) then
      s.(dragInfo := None, dragStatus := Wait, events := s.events + [UpdateResult])
    else
      var s1 := if e.button == LeftButton then LeftRelease(s, e, env) else s;
      if e.button == RightButton then RightMouseUp(s1, e) else s1
  }

  /** The front face spanned from the first click to the cursor. The corner labelled `tl`
      is always the first click, whichever way the cursor lies. */
  function AnchoredRect(anchor: Point, cursor: Point): (r: Plane)
    ensures r.tl == anchor
    ensures IsAxisAligned(r)
    ensures r.tr.x >= r.tl.x && r.bl.y >= r.tl.y
    ensures r.tr.x - r.tl.x == Abs(cursor.x - anchor.x) && r.bl.y - r.tl.y == Abs(cursor.y - anchor.y)
  {
    var width := Abs(cursor.x - anchor.x);
    var height := Abs(cursor.y - anchor.y);
    Plane(anchor, Point(anchor.x + width, anchor.y), Point(anchor.x, anchor.y + height), Point(anchor.x + width, anchor.y + height))
  }

  function Abs(v: real): real {
    if v < 0.0 then -v else v
  }

  predicate DrawingFront(s: State) {
    s.drawingCuboid.Some? && s.firstClickCoord.Some? && s.drawingStatus == FirstPoint
  }

  /** While the front face is being drawn, a move rebuilds it from the first click. The
      flag reports whether the move was taken (the source returns `true`, else nothing). */
  function DrawingFrontPlanesMove(s: State, e: Pointer): (r: (State, bool))
    ensures r.1 <==> DrawingFront(s)
    ensures !DrawingFront(s) ==> r.0 == s
    ensures DrawingFront(s) ==>
      && r.0.drawingCuboid.Some?
      && r.0.drawingCuboid.value == s.drawingCuboid.value.(frontPoints := r.0.drawingCuboid.value.frontPoints)
      && r.0.drawingCuboid.value.frontPoints == AnchoredRect(s.firstClickCoord.value, e.inOrigin)
      && r.0 == s.(drawingCuboid := r.0.drawingCuboid)
  {
    if DrawingFront(s) then
      var d := s.drawingCuboid.value;
      (s.(drawingCuboid := Some(d.(frontPoints := AnchoredRect(s.firstClickCoord.value, e.inOrigin)))), true)
    else (s, false)
  }

  /** While the back plane is pending, a move recomputes it from the cursor. */
  function DrawingBackPlaneMove(s: State, e: Pointer, env: Env): (r: State)
    ensures s.drawingCuboid.Some? && s.firstClickCoord.Some? && s.drawingStatus == CuboidStage ==>
      r == s.(drawingCuboid := Some(s.drawingCuboid.value.(backPoints := Some(env.backPlane(e.inOrigin, s.drawingCuboid.value.frontPoints)))))
    ensures !(s.drawingCuboid.Some? && s.firstClickCoord.Some? && s.drawingStatus == CuboidStage) ==> r == s
  {
    if s.drawingCuboid.Some? && s.firstClickCoord.Some? && s.drawingStatus == CuboidStage then
      var d := s.drawingCuboid.value;
      s.(drawingCuboid := Some(d.(backPoints := Some(env.backPlane(e.inOrigin, d.frontPoints)))))
    else s
  }

  /** The drag offset: cursor minus drag start, normalised by the zoom. */
  function DragOffset(start: Point, cursor: Point, zoom: Zoom): (r: Point)
    ensures r.x * zoom == cursor.x - start.x && r.y * zoom == cursor.y - start.y
  {
    Point((cursor.x - start.x) / zoom, (cursor.y - start.y) / zoom)
  }

  /** A drag move applies the offset to the snapshot and puts the result in place of the
      selected cuboid; the drag is now moving. */
  function OnDragMove(s: State, e: Pointer, env: Env): (r: State)
    ensures s.dragInfo.None? || s.selectedID == "" ==> r == s
    ensures s.dragInfo.Some? && s.selectedID != "" ==>
      var info := s.dragInfo.value;
      var moved := env.dragMove(DragOffset(info.dragStartCoord, e.underZoom, env.zoom), info.initCuboid, info.dragTarget, info.positions);
      && r.dragStatus == Move
      && |r.cuboidList| == |s.cuboidList|
      && (forall i :: 0 <= i < |s.cuboidList| && s.cuboidList[i].id != s.selectedID ==> r.cuboidList[i] == s.cuboidList[i])
      && (moved.Some? ==> forall i :: 0 <= i < |s.cuboidList| && s.cuboidList[i].id == s.selectedID ==> r.cuboidList[i] == moved.value)
      && (moved.None? ==> r.cuboidList == s.cuboidList)
      && r == s.(dragStatus := Move, cuboidList := r.cuboidList)
  {
    if s.dragInfo.None? || s.selectedID == "" then s
    else
      var info := s.dragInfo.value;
      var offset := DragOffset(info.dragStartCoord, e.underZoom, env.zoom);
      var s1 := s.(dragStatus := Move);
      match env.dragMove(offset, info.initCuboid, info.dragTarget, info.positions)
      case Some(c) => UpdateSelectedCuboid(s1, c)
      case None => s1
  }

  /** Hover feedback: with a cuboid selected, the proximity hits become the highlight. */
  function OnHoverMove(s: State, e: Pointer): (r: State)
    ensures SelectedCuboid(s).Some? ==> r == s.(highlightInfo := Some(e.closeHits))
    ensures SelectedCuboid(s).None? ==> r == s
  {
    if SelectedCuboid(s).Some? then s.(highlightInfo := Some(e.closeHits)) else s
  }

  /** Pointer-move dispatch: an active drag first, then the drawing, then hover. */
  function OnMouseMove(s: State, e: Pointer, env: Env): (r: State)
    ensures e.superConsumed || env.forbidMouseOperation || !env.imgLoaded ==> r == s
    ensures !e.superConsumed && !env.forbidMouseOperation && env.imgLoaded ==>
      if s.selectedID != "" && s.dragInfo.Some? then
        r == OnDragMove(s, e, env)
      else if s.drawingCuboid.Some? then
        && r == (if DrawingFrontPlanesMove(s, e).1 then DrawingFrontPlanesMove(s, e).0 else DrawingBackPlaneMove(s, e, env))
        && r.hoverID == s.hoverID && r.cuboidList == s.cuboidList && r.dragStatus == s.dragStatus
        && r.drawingCuboid.Some?
        && r.drawingCuboid.value.id == s.drawingCuboid.value.id
        && (s.drawingStatus == FirstPoint && s.firstClickCoord.Some? ==>
              && r.drawingCuboid.value.frontPoints == AnchoredRect(s.firstClickCoord.value, e.inOrigin)
              && r.drawingCuboid.value.backPoints == s.drawingCuboid.value.backPoints)
      else
        && r.hoverID == e.hoverID
        && r == s.(hoverID := e.hoverID, highlightInfo := r.highlightInfo)
  {
    if e.superConsumed || env.forbidMouseOperation || !env.imgLoaded then s
    else if s.selectedID != "" && s.dragInfo.Some? then OnDragMove(s, e, env)
    else if s.drawingCuboid.Some? then
      var (front, taken) := DrawingFrontPlanesMove(s, e);
      if taken then front
      else DrawingBackPlaneMove(s, e, env)
    else OnHoverMove(s.(hoverID := e.hoverID), e)
  }

  // ---------------------------------------------------------------------------------------
  // Properties of the controller

  /** The drawing state machine's transition table for a primary release. */
  function NextStatus(st: DrawingStatus): DrawingStatus {
    match st
    case Ready => FirstPoint
    case FirstPoint => CuboidStage
    case CuboidStage => Ready
  }

  /** A release the tool handles (not consumed, not forbidden, an image loaded). */
  predicate Handled(e: Pointer, env: Env) {
    !e.superConsumed && !env.forbidMouseOperation && env.imgLoaded
  }

  /** Every pointer handler keeps the drawing record consistent with the drawing status. */
  lemma HandlersKeepDrawingConsistent(s: State, e: Pointer, env: Env)
    requires DrawingConsistent(s)
    ensures DrawingConsistent(OnMouseUp(s, e, env))
    ensures DrawingConsistent(OnMouseMove(s, e, env))
    ensures DrawingConsistent(OnMouseDown(s, e, env))
    ensures DrawingConsistent(OnRightDblClick(s, e))
  {
  }

  /** With no moving drag, a handled primary release advances the drawing status one step
      round the cycle Ready, FirstPoint, CuboidStage, and only the last step touches the
      list: it appends exactly the drawing cuboid and selects it. */
  lemma ReleaseAdvancesDrawing(s: State, e: Pointer, env: Env)
    requires DrawingConsistent(s) && !EndsDrag(s)
    requires Handled(e, env) && e.button == LeftButton
    ensures OnMouseUp(s, e, env).drawingStatus == NextStatus(s.drawingStatus)
    ensures s.drawingStatus == CuboidStage ==>
      && OnMouseUp(s, e, env).cuboidList == s.cuboidList + [s.drawingCuboid.value]
      && OnMouseUp(s, e, env).selectedID == s.drawingCuboid.value.id
      && OnMouseUp(s, e, env).drawingCuboid.None?
    ensures s.drawingStatus != CuboidStage ==> OnMouseUp(s, e, env).cuboidList == s.cuboidList
  {
  }

  /** The whole drawing gesture: three clicks (press and release) with a move between each
      pair, no press landing on the selected cuboid. The committed cuboid has the fresh id of
      the first click, the front face spanned from the first click to the first move, and
      the back face built from the second move; it is appended at the end and selected, and
      the tool is ready again. */
  lemma DrawOneCuboid(s: State, env: Env, press1: Pointer, click1: Pointer, move1: Pointer, press2: Pointer, click2: Pointer,
                      move2: Pointer, press3: Pointer, click3: Pointer)
    requires DrawingConsistent(s) && s.drawingStatus == Ready && s.dragInfo.None?
    requires env.imgLoaded && !env.forbidMouseOperation
    requires press1.hoverID != s.selectedID && press2.hoverID != s.selectedID && press3.hoverID != s.selectedID
    requires !click1.superConsumed && !click2.superConsumed && !click3.superConsumed
    requires click1.button == LeftButton && click2.button == LeftButton && click3.button == LeftButton
    requires !move1.superConsumed && !move2.superConsumed
    ensures
      var s1 := OnMouseUp(OnMouseDown(s, press1, env), click1, env);
      var s2 := OnMouseMove(s1, move1, env);
      var s3 := OnMouseUp(OnMouseDown(s2, press2, env), click2, env);
      var s4 := OnMouseMove(s3, move2, env);
      var s5 := OnMouseUp(OnMouseDown(s4, press3, env), click3, env);
      var front := AnchoredRect(click1.inOrigin, move1.inOrigin);
      && s1.drawingStatus == FirstPoint
      && s3.drawingStatus == CuboidStage
      && s5.drawingStatus == Ready && s5.drawingCuboid.None?
      && s5.cuboidList == s.cuboidList + [Cuboid(click1.freshID, env.sourceID, env.defaultAttribute, !click1.ctrlKey,
                                                 click1.maxOrder + 1, "", front, Some(env.backPlane(move2.inOrigin, front)))]
      && s5.selectedID == click1.freshID
  {
    assert OnMouseDown(s, press1, env) == s;
    var s1 := OnMouseUp(s, click1, env);
    assert s1.drawingCuboid.Some? && s1.dragInfo.None? && s1.selectedID == s.selectedID;
    var s2 := OnMouseMove(s1, move1, env);
    assert s2 == DrawingFrontPlanesMove(s1, move1).0;
    assert OnMouseDown(s2, press2, env) == s2;
    var s3 := OnMouseUp(s2, click2, env);
    assert s3 == CloseNewDrawingFrontPlane(s2);
    var s4 := OnMouseMove(s3, move2, env);
    assert s4 == DrawingBackPlaneMove(s3, move2, env);
    assert OnMouseDown(s4, press3, env) == s4;
    var s5 := OnMouseUp(s4, click3, env);
    assert s5 == CloseCuboid(s4);
  }

  /** The drag snapshot's id keeps its value under `dragMove`, whatever the offset. */
  ghost predicate MoveKeepsId(env: Env, info: DragInfo) {
    forall o: Point :: env.dragMove(o, info.initCuboid, info.dragTarget, info.positions).Some? ==>
      env.dragMove(o, info.initCuboid, info.dragTarget, info.positions).value.id == info.initCuboid.id
  }

  /** Drag moves do not accumulate: after any earlier move of the same gesture, a move puts
      the list exactly where a single move from the snapshot would have put it. */
  lemma DragIsGestureRelative(s: State, e1: Pointer, e2: Pointer, env: Env)
    requires s.dragInfo.Some? && s.selectedID != ""
    requires s.dragInfo.value.initCuboid.id == s.selectedID
    requires MoveKeepsId(env, s.dragInfo.value)
    requires env.dragMove(DragOffset(s.dragInfo.value.dragStartCoord, e2.underZoom, env.zoom), s.dragInfo.value.initCuboid,
                          s.dragInfo.value.dragTarget, s.dragInfo.value.positions).Some?
    ensures OnDragMove(OnDragMove(s, e1, env), e2, env) == OnDragMove(s, e2, env)
  {
    var info := s.dragInfo.value;
    var m1 := env.dragMove(DragOffset(info.dragStartCoord, e1.underZoom, env.zoom), info.initCuboid, info.dragTarget, info.positions);
    var s1 := OnDragMove(s, e1, env);
    var a := OnDragMove(s1, e2, env);
    var b := OnDragMove(s, e2, env);
    assert s1.dragInfo == s.dragInfo && s1.selectedID == s.selectedID;
    forall i | 0 <= i < |s.cuboidList|
      ensures s1.cuboidList[i].id == s.selectedID <==> s.cuboidList[i].id == s.selectedID
    {
      if s.cuboidList[i].id == s.selectedID && m1.Some? {
        assert s1.cuboidList[i] == m1.value;
      }
    }
    assert a.cuboidList == b.cuboidList;
  }

  /** No two entries of the list share an id. */
  predicate UniqueIds(list: seq<Cuboid>) {
    forall i, j :: 0 <= i < j < |list| ==> list[i].id != list[j].id
  }

  /** Deletion keeps the surviving cuboids in their order: deleting from a concatenation is
      deleting from each part, and deleting twice is deleting once. */
  lemma DeleteKeepsOrder(s: State, id: string, front: seq<Cuboid>, back: seq<Cuboid>)
    requires id != "" && s.cuboidList == front + back
    ensures DeleteCuboid(s, id).cuboidList == Filter(front, LacksId(id)) + Filter(back, LacksId(id))
    ensures DeleteCuboid(DeleteCuboid(s, id), id) == DeleteCuboid(s, id)
  {
    FilterAppend(front, back, LacksId(id));
    FilterIdempotent(s.cuboidList, LacksId(id));
  }

  /** Committing a cuboid whose id is not in the list keeps ids unique. */
  lemma CommitKeepsIdsUnique(s: State)
    requires s.drawingCuboid.Some? && UniqueIds(s.cuboidList)
    requires forall c :: c in s.cuboidList ==> c.id != s.drawingCuboid.value.id
    ensures UniqueIds(CloseCuboid(s).cuboidList)
  {
    var l := CloseCuboid(s).cuboidList;
    forall i, j | 0 <= i < j < |l|
      ensures l[i].id != l[j].id
    {
      if j == |s.cuboidList| {
        assert l[i] in s.cuboidList;
      }
    }
  }

  /** A drag move whose result keeps the snapshot's id keeps ids unique. */
  lemma DragKeepsIdsUnique(s: State, e: Pointer, env: Env)
    requires s.dragInfo.Some? && s.dragInfo.value.initCuboid.id == s.selectedID
    requires MoveKeepsId(env, s.dragInfo.value)
    requires UniqueIds(s.cuboidList)
    ensures UniqueIds(OnDragMove(s, e, env).cuboidList)
  {
    var l := OnDragMove(s, e, env).cuboidList;
    forall i, j | 0 <= i < j < |l|
      ensures l[i].id != l[j].id
    {
      assert l[i].id == s.selectedID <==> s.cuboidList[i].id == s.selectedID;
      assert l[j].id == s.selectedID <==> s.cuboidList[j].id == s.selectedID;
    }
  }

  /** A secondary release over a cuboid selects it; a secondary double-click over the same
      cuboid then deletes every entry with its id and clears the selection. */
  lemma SelectThenDeleteCuboid(s: State, release: Pointer, dblClick: Pointer, env: Env)
    requires Handled(release, env) && release.button == RightButton && !EndsDrag(s)
    requires release.hoverID != "" && dblClick.hoverID == release.hoverID
    ensures
      var s1 := OnMouseUp(s, release, env);
      var s2 := OnRightDblClick(s1, dblClick);
      && s1.selectedID == release.hoverID && s1.cuboidList == s.cuboidList
      && s2.cuboidList == Filter(s.cuboidList, LacksId(release.hoverID))
      && (forall c :: c in s2.cuboidList <==> c in s.cuboidList && c.id != release.hoverID)
      && s2.selectedID == ""
  {
    var s1 := OnMouseUp(s, release, env);
    assert s1 == RightMouseUp(s, release);
  }

  /** The drag snapshot, while there is a selection, is the selected cuboid. */
  predicate DragOnSelection(s: State) {
    s.dragInfo.Some? && s.selectedID != "" ==> s.dragInfo.value.initCuboid.id == s.selectedID
  }

  /** As written, a release ends a drag only after it has moved. A secondary release while a
      drag is armed but unmoved selects the hovered cuboid and keeps the old snapshot; the
      next move then writes a copy of the old cuboid over the newly selected one, so two
      entries share an id and the other cuboid is lost. */
  lemma ArmedDragOverwritesOtherCuboid(a: Cuboid, b: Cuboid, env: Env, press: Pointer, release: Pointer, move: Pointer)
    requires a.id != "" && b.id != "" && a.id != b.id
    requires env.imgLoaded && !env.forbidMouseOperation && !env.isSpaceKey
    requires !press.superConsumed && !press.ctrlKey && press.button == LeftButton && press.hoverID == a.id
    requires !release.superConsumed && release.button == RightButton && release.hoverID == b.id
    requires !move.superConsumed
    requires var (target, positions) := DragTargetOf(press.closeHits);
      var moved := env.dragMove(DragOffset(press.underZoom, move.underZoom, env.zoom), a, target, positions);
      moved.Some? && moved.value.id == a.id
    ensures
      var s0 := Initial.(cuboidList := [a, b], selectedID := a.id);
      var s1 := OnMouseDown(s0, press, env);
      var s2 := OnMouseUp(s1, release, env);
      var s3 := OnMouseMove(s2, move, env);
      && UniqueIds(s0.cuboidList) && DragOnSelection(s1)
      && s2.selectedID == b.id && s2.dragInfo == s1.dragInfo && !DragOnSelection(s2)
      && |s3.cuboidList| == 2 && s3.cuboidList[0] == a && s3.cuboidList[1].id == a.id
      && !UniqueIds(s3.cuboidList)
  {
    var s0 := Initial.(cuboidList := [a, b], selectedID := a.id);
    assert SelectedCuboid(s0) == Some(a);
    var s1 := OnMouseDown(s0, press, env);
    assert s1.dragInfo.Some? && s1.dragInfo.value.initCuboid == a;
    var s2 := OnMouseUp(s1, release, env);
    assert s2 == s1.(selectedID := b.id);
    var s3 := OnMouseMove(s2, move, env);
    assert s3 == OnDragMove(s2, move, env);
    assert s3.cuboidList[0].id == a.id && s3.cuboidList[1].id == a.id;
  }

  /** As written, a click (press and primary release, no move between) on the selected
      cuboid keeps the armed drag and also starts a new drawing; the next move then drags
      the cuboid instead of drawing the front face. */
  lemma ClickOnSelectionKeepsDragging(s: State, env: Env, press: Pointer, release: Pointer, move: Pointer)
    requires DrawingConsistent(s) && s.drawingStatus == Ready && s.dragInfo.None?
    requires env.imgLoaded && !env.forbidMouseOperation && !env.isSpaceKey
    requires s.selectedID != "" && SelectedCuboid(s).Some?
    requires !press.superConsumed && !press.ctrlKey && press.button == LeftButton && press.hoverID == s.selectedID
    requires !release.superConsumed && release.button == LeftButton
    requires !move.superConsumed
    ensures
      var s1 := OnMouseUp(OnMouseDown(s, press, env), release, env);
      var s2 := OnMouseMove(s1, move, env);
      && s1.dragInfo.Some? && s1.dragStatus == Start
      && s1.drawingStatus == FirstPoint && s1.drawingCuboid.Some?
      && s2 == OnDragMove(s1, move, env) && s2.dragStatus == Move
      && s2.drawingCuboid == s1.drawingCuboid
  {
    var s0 := OnMouseDown(s, press, env);
    assert ArmsDrag(s, press, env);
    var s1 := OnMouseUp(s0, release, env);
    assert s1 == CreateNewDrawingCuboid(s0, release, env);
    assert s1.selectedID == s.selectedID;
  }

  /** As written, when the click that commits a drawing lands on the selected cuboid, the
      press arms a drag on that cuboid and the release commits the new cuboid and selects
      it, keeping the old snapshot; the next move then writes a copy of the old cuboid over
      the new one, so the new cuboid is lost and the old id appears twice. */
  lemma CommitOnSelectionOverwritesNewCuboid(s: State, env: Env, press: Pointer, release: Pointer, move: Pointer)
    requires s.drawingStatus == CuboidStage && s.drawingCuboid.Some? && s.dragInfo.None?
    requires s.selectedID != "" && SelectedCuboid(s).Some?
    requires s.drawingCuboid.value.id != "" && s.drawingCuboid.value.id != s.selectedID
    requires env.imgLoaded && !env.forbidMouseOperation && !env.isSpaceKey
    requires !press.superConsumed && !press.ctrlKey && press.button == LeftButton && press.hoverID == s.selectedID
    requires !release.superConsumed && release.button == LeftButton
    requires !move.superConsumed
    requires var (target, positions) := DragTargetOf(press.closeHits);
      var moved := env.dragMove(DragOffset(press.underZoom, move.underZoom, env.zoom), SelectedCuboid(s).value, target, positions);
      moved.Some? && moved.value.id == s.selectedID
    ensures
      var n := |s.cuboidList|;
      var s2 := OnMouseUp(OnMouseDown(s, press, env), release, env);
      var s3 := OnMouseMove(s2, move, env);
      && s2.cuboidList == s.cuboidList + [s.drawingCuboid.value]
      && s2.selectedID == s.drawingCuboid.value.id && s2.drawingStatus == Ready
      && s2.dragInfo.Some? && s2.dragInfo.value.initCuboid == SelectedCuboid(s).value
      && |s3.cuboidList| == n + 1 && s3.cuboidList[n].id == s.selectedID
      && !UniqueIds(s3.cuboidList)
  {
    var a := SelectedCuboid(s).value;
    var n := |s.cuboidList|;
    var i :| 0 <= i < n && s.cuboidList[i] == a;
    var s1 := OnMouseDown(s, press, env);
    assert ArmsDrag(s, press, env);
    var s2 := OnMouseUp(s1, release, env);
    assert s2 == CloseCuboid(s1);
    var s3 := OnMouseMove(s2, move, env);
    assert s3 == OnDragMove(s2, move, env);
    assert s3.cuboidList[i] == a;
    assert s3.cuboidList[i].id == s3.cuboidList[n].id;
  }

  /** The release as evidently intended: every handled release ends the drag, moved or not;
      only a drag that moved reports a result. Everything else is the release as written. */
  function OnMouseUpEndingDrag(s: State, e: Pointer, env: Env): (r: State)
    ensures !Handled(e, env) ==> r == s
    ensures Handled(e, env) ==> r.dragInfo.None?
    ensures Handled(e, env) && (EndsDrag(s) || s.dragInfo.None?) ==> r == OnMouseUp(s, e, env)
    ensures Handled(e, env) && !EndsDrag(s) ==>
      r.cuboidList == OnMouseUp(s, e, env).cuboidList && r.selectedID == OnMouseUp(s, e, env).selectedID
  {
    if !Handled(e, env) || EndsDrag(s) || s.dragInfo.None? then OnMouseUp(s, e, env)
    else OnMouseUp(s.(dragInfo := None, dragStatus := Wait), e, env)
  }

  /** With the corrected release, every pointer handler keeps the drag snapshot on the
      selected cuboid. */
  lemma CorrectedHandlersKeepDragOnSelection(s: State, e: Pointer, env: Env)
    requires DragOnSelection(s)
    ensures DragOnSelection(OnMouseDown(s, e, env))
    ensures DragOnSelection(OnMouseUpEndingDrag(s, e, env))
    ensures DragOnSelection(OnMouseMove(s, e, env))
    ensures DragOnSelection(OnRightDblClick(s, e))
  {
  }

  /** With the drag snapshot on the selection, and a `getCuboidDragMove` that keeps ids,
      pointer moves keep the list's ids unique. */
  lemma CorrectedMovesKeepIdsUnique(s: State, e: Pointer, env: Env)
    requires DragOnSelection(s) && UniqueIds(s.cuboidList)
    requires s.dragInfo.Some? ==> MoveKeepsId(env, s.dragInfo.value)
    ensures UniqueIds(OnMouseMove(s, e, env).cuboidList)
  {
    if Handled(e, env) && s.selectedID != "" && s.dragInfo.Some? {
      DragKeepsIdsUnique(s, e, env);
    }
  }

  /** Deletion keeps ids unique. */
  lemma DeleteKeepsIdsUnique(s: State, id: string)
    requires UniqueIds(s.cuboidList)
    ensures UniqueIds(DeleteCuboid(s, id).cuboidList)
  {
    if id != "" {
      FilterKeepsIdsUnique(s.cuboidList, LacksId(id));
    }
  }

  /** Filtering a list with unique ids leaves a list with unique ids. */
  lemma {:induction false} FilterKeepsIdsUnique(list: seq<Cuboid>, keep: Cuboid -> bool)
    requires UniqueIds(list)
    ensures UniqueIds(Filter(list, keep))
    decreases |list|
  {
    if |list| > 0 {
      var rest := list[1..];
      assert UniqueIds(rest) by {
        forall i, j | 0 <= i < j < |rest| ensures rest[i].id != rest[j].id {
          assert rest[i] == list[i + 1] && rest[j] == list[j + 1];
        }
      }
      FilterKeepsIdsUnique(rest, keep);
      if keep(list[0]) {
        var f := Filter(list, keep);
        assert f == [list[0]] + Filter(rest, keep);
        forall j | 1 <= j < |f| ensures f[0].id != f[j].id {
          assert f[j] in Filter(rest, keep);
          assert f[j] in rest;
          var k :| 0 <= k < |rest| && rest[k] == f[j];
          assert list[k + 1] == f[j];
        }
      }
    }
  }
}

=== FILE: cuboid_utils.dfy ===
/** Face geometry of a cuboid given as an `x/y/width/height` front rectangle plus a dragged
    depth edge: the front face's corners, and the back face rebuilt from that edge by
    intersecting side lines. The line-intersection routine is a parameter: every property
    below holds for any routine, and the ones that need it to be sound say so. */
module CuboidUtils {
  import opened Wrappers
  import opened Geometry

  /** The right-hand edge of the back face, as dragged by the user (`sideLine`). */
  datatype DepthEdge = DepthEdge(top: Point, bottom: Point)

  /** The cuboid input of the geometry functions. */
  datatype Box3d = Box3d(x: real, y: real, width: real, height: real, sideLine: DepthEdge)

  /** A rebuilt back face, its four side lines, and (on the parallel path only) the front face. */
  datatype BackCoordinate = BackCoordinate(face: Plane, sideLine: seq<Segment>, frontPoints: Option<Plane>)

  datatype Corner = TopLeft | TopRight | BottomLeft | BottomRight

  function CornerOf(q: Plane, c: Corner): Point {
    match c
    case TopLeft => q.tl
    case TopRight => q.tr
    case BottomLeft => q.bl
    case BottomRight => q.br
  }

  /** The order in which the side lines are listed. */
  const SideLineOrder: seq<Corner> := [BottomRight, TopRight, BottomLeft, TopLeft]

  /** `sides` holds four segments, the i-th joining the front and back corners named by
      the i-th entry of `SideLineOrder`. */
  predicate JoinsCorners(front: Plane, back: Plane, sides: seq<Segment>) {
    && |sides| == 4
    && forall i :: 0 <= i < 4 ==> sides[i] == Segment(CornerOf(front, SideLineOrder[i]), CornerOf(back, SideLineOrder[i]))
  }

  /** Both horizontal edges are horizontal and both vertical edges are vertical. */
  predicate IsAxisAligned(q: Plane) {
    q.tl.y == q.tr.y && q.bl.y == q.br.y && q.tl.x == q.bl.x && q.tr.x == q.br.x
  }

  /** The top edge and the bottom edge of a face span the same horizontal distance. */
  predicate EqualHorizontalExtent(q: Plane) {
    q.tr.x - q.tl.x == q.br.x - q.bl.x
  }

  /** The front face: the axis-aligned rectangle with top-left corner `(x, y)`. */
  function GetFrontCoordinate(b: Box3d): (r: Plane)
    ensures IsAxisAligned(r)
    ensures r.tl == Point(b.x, b.y)
    ensures r.tr.x - r.tl.x == b.width && r.bl.y - r.tl.y == b.height
  {
    Plane(
      Point(b.x, b.y),
      Point(b.x + b.width, b.y),
      Point(b.x, b.y + b.height),
      Point(b.x + b.width, b.y + b.height))
  }

  /** The two right-hand side lines, front corner to dragged depth-edge end. */
  function BottomRightLine(b: Box3d): Line {
    Line(GetFrontCoordinate(b).br, b.sideLine.bottom)
  }

  function TopRightLine(b: Box3d): Line {
    Line(GetFrontCoordinate(b).tr, b.sideLine.top)
  }

  /** The bottom-right end of the depth edge moved back by the front face's bottom edge. */
  function X4(b: Box3d): Point {
    var front := GetFrontCoordinate(b);
    Point(b.sideLine.bottom.x - (front.br.x - front.bl.x), b.sideLine.bottom.y - (front.br.y - front.bl.y))
  }

  /** The line from the front bottom-left corner to the vanishing point, and the line
      through the depth edge's bottom end and `X4`. */
  function VanishingLine(b: Box3d, vanishing: Point): Line {
    Line(GetFrontCoordinate(b).bl, vanishing)
  }

  function BackBottomLine(b: Box3d): Line {
    Line(b.sideLine.bottom, X4(b))
  }

  /** The back face whose right edge is the depth edge and whose left edge lies `width` to
      its left, with the side lines joining it to the front face. */
  function BackFace(front: Plane, top: Point, bottom: Point, width: real, frontPoints: Option<Plane>): BackCoordinate {
    var newTopLeft := Point(top.x - width, top.y);
    var newBottomLeft := Point(bottom.x - width, bottom.y);
    BackCoordinate(
      Plane(newTopLeft, top, newBottomLeft, bottom),
      [ Segment(front.br, bottom),
        Segment(front.tr, top),
        Segment(front.bl, newBottomLeft),
        Segment(front.tl, newTopLeft) ],
      frontPoints)
  }

  /** Rebuilds the back face from the dragged depth edge. When the two right-hand side
      lines do not meet, the back face is the front face's width translated to the edge;
      otherwise the left edge is placed where the line towards the vanishing point meets
      the back face's bottom line, and no face comes back when those do not meet. */
  function GetBackCoordinate(b: Box3d, intersect: (Line, Line) -> Option<Point>): (r: Option<BackCoordinate>)
    // the right edge is the dragged edge, the side lines join matching corners
    ensures r.Some? ==> r.value.face.tr == b.sideLine.top && r.value.face.br == b.sideLine.bottom
    ensures r.Some? ==> JoinsCorners(GetFrontCoordinate(b), r.value.face, r.value.sideLine)
    ensures r.Some? ==> EqualHorizontalExtent(r.value.face)
    ensures r.Some? ==> r.value.face.tl.y == b.sideLine.top.y && r.value.face.bl.y == b.sideLine.bottom.y
    // parallel right-hand side lines: exact width-preserving translation
    ensures intersect(BottomRightLine(b), TopRightLine(b)).None? ==>
      && r.Some?
      && r.value.face.tl == Point(b.sideLine.top.x - b.width, b.sideLine.top.y)
      && r.value.face.bl == Point(b.sideLine.bottom.x - b.width, b.sideLine.bottom.y)
      && r.value.frontPoints == Some(GetFrontCoordinate(b))
    // meeting right-hand side lines: the left edge passes through the second intersection
    ensures intersect(BottomRightLine(b), TopRightLine(b)).Some? ==>
      var second := intersect(VanishingLine(b, intersect(BottomRightLine(b), TopRightLine(b)).value), BackBottomLine(b));
      && (r.None? <==> second.None?)
      && (r.Some? ==> r.value.face.bl.x == second.value.x && r.value.frontPoints.None?)
  {
    var front := GetFrontCoordinate(b);
    var top := b.sideLine.top;
    var bottom := b.sideLine.bottom;
    match intersect(BottomRightLine(b), TopRightLine(b))
    case None =>
      Some(BackFace(front, top, bottom, b.width, Some(front)))
    case Some(vanishing) =>
      match intersect(VanishingLine(b, vanishing), BackBottomLine(b))
      case None => None
      case Some(newIntersection) =>
        var newWidth := bottom.x - newIntersection.x;
        Some(BackFace(front, top, bottom, newWidth, None))
  }

  /** With a sound intersection routine and a front face of non-zero width, the non-parallel
      path puts the back bottom-left corner exactly on the second intersection, that is, on
      the line from the front bottom-left corner towards the vanishing point. */
  lemma BackBottomLeftOnVanishingLine(b: Box3d, intersect: (Line, Line) -> Option<Point>)
    requires SoundIntersection(intersect)
    requires b.width != 0.0
    requires intersect(BottomRightLine(b), TopRightLine(b)).Some?
    requires GetBackCoordinate(b, intersect).Some?
    ensures var vanishing := intersect(BottomRightLine(b), TopRightLine(b)).value;
      && GetBackCoordinate(b, intersect).value.face.bl == intersect(VanishingLine(b, vanishing), BackBottomLine(b)).value
      && OnLine(GetBackCoordinate(b, intersect).value.face.bl, VanishingLine(b, vanishing))
  {
    var vanishing := intersect(BottomRightLine(b), TopRightLine(b)).value;
    var p := intersect(VanishingLine(b, vanishing), BackBottomLine(b)).value;
    var bottom := b.sideLine.bottom;
    assert OnLine(p, BackBottomLine(b));
    assert Direction(BackBottomLine(b)) == Point(-b.width, 0.0);
    assert Cross(Point(-b.width, 0.0), Minus(p, bottom)) == -b.width * (p.y - bottom.y);
    assert p.y == bottom.y;
  }

  /** A depth edge exactly as tall as the front face makes the right-hand side lines
      parallel under Cramer's rule, and the back face is then the front face translated by
      the offset of the edge's bottom end from the front bottom-right corner. */
  lemma EqualHeightEdgeTranslatesFront(b: Box3d)
    requires b.sideLine.top == Point(b.sideLine.bottom.x, b.sideLine.bottom.y - b.height)
    ensures GetBackCoordinate(b, CramerIntersection).Some?
    ensures var d := Minus(b.sideLine.bottom, GetFrontCoordinate(b).br);
      var front := GetFrontCoordinate(b);
      var back := GetBackCoordinate(b, CramerIntersection).value.face;
      && back.tl == Point(front.tl.x + d.x, front.tl.y + d.y)
      && back.tr == Point(front.tr.x + d.x, front.tr.y + d.y)
      && back.bl == Point(front.bl.x + d.x, front.bl.y + d.y)
      && back.br == Point(front.br.x + d.x, front.br.y + d.y)
  {
    assert Direction(BottomRightLine(b)) == Direction(TopRightLine(b));
    var u := Direction(BottomRightLine(b));
    assert Cross(u, u) == 0.0;
  }
}

=== FILE: geometry.dfy ===
/** Plane geometry shared by the cuboid and point tools. Coordinates are exact reals; the
    source's IEEE doubles and `Math.sqrt` are replaced by exact arithmetic and squared
    distances. */
module Geometry {
  import opened Wrappers

  /** An image-space coordinate (`ICoordinate`). */
  datatype Point = Point(x: real, y: real)

  /** The four corners of one face of a cuboid (`{ tl, tr, bl, br }`). */
  datatype Plane = Plane(tl: Point, tr: Point, bl: Point, br: Point)

  /** A drawn segment (`{ p1, p2 }`). */
  datatype Segment = Segment(p1: Point, p2: Point)

  /** The infinite line through two points (`IBasicLine`). */
  datatype Line = Line(pointA: Point, pointB: Point)

  function Minus(a: Point, b: Point): Point {
    Point(a.x - b.x, a.y - b.y)
  }

  /** The z-component of the cross product of two plane vectors. */
  function Cross(u: Point, v: Point): real {
    u.x * v.y - u.y * v.x
  }

  function SqDist(a: Point, b: Point): real {
    (a.x - b.x) * (a.x - b.x) + (a.y - b.y) * (a.y - b.y)
  }

  /** A zoom factor; the view never has a zero or negative zoom. */
  type Zoom = z: real | z > 0.0 witness 1.0

  /** A point multiplied coordinate-wise by a factor (a zoom change). */
  function Scale(p: Point, k: real): Point {
    Point(p.x * k, p.y * k)
  }

  function Direction(l: Line): Point {
    Minus(l.pointB, l.pointA)
  }

  /** `p` lies on the line through `l.pointA` and `l.pointB`. */
  predicate OnLine(p: Point, l: Line) {
    Cross(Direction(l), Minus(p, l.pointA)) == 0.0
  }

  /** An intersection routine is sound when every point it reports lies on both lines. */
  ghost predicate SoundIntersection(intersect: (Line, Line) -> Option<Point>) {
    forall a: Line, b: Line :: intersect(a, b).Some? ==> OnLine(intersect(a, b).value, a) && OnLine(intersect(a, b).value, b)
  }

  /** One implementation of line-line intersection, by Cramer's rule on the two
      parametrised lines; it reports no point exactly when the directions are parallel. */
  function CramerIntersection(a: Line, b: Line): (r: Option<Point>)
    ensures r.None? <==> Cross(Direction(a), Direction(b)) == 0.0
    ensures r.Some? ==> OnLine(r.value, a) && OnLine(r.value, b)
  {
    var u := Direction(a);
    var v := Direction(b);
    var det := Cross(u, v);
    if det == 0.0 then None
    else
      var w := Minus(b.pointA, a.pointA);
      var t := Cross(w, v) / det;
      var p := Point(a.pointA.x + t * u.x, a.pointA.y + t * u.y);
      CrossOfMultiple(u, t);
      CramerOnSecondLine(a, b, t, p);
      Some(p)
  }

  lemma CrossOfMultiple(u: Point, t: real)
    ensures Cross(u, Point(t * u.x, t * u.y)) == 0.0
  {
    assert u.x * (t * u.y) == t * (u.x * u.y);
    assert u.y * (t * u.x) == t * (u.x * u.y);
  }

  lemma CramerOnSecondLine(a: Line, b: Line, t: real, p: Point)
    requires Cross(Direction(a), Direction(b)) != 0.0
    requires t == Cross(Minus(b.pointA, a.pointA), Direction(b)) / Cross(Direction(a), Direction(b))
    requires p == Point(a.pointA.x + t * Direction(a).x, a.pointA.y + t * Direction(a).y)
    ensures OnLine(p, b) && OnLine(p, a)
  {
    var u, v, w := Direction(a), Direction(b), Minus(b.pointA, a.pointA);
    var det := Cross(u, v);
    assert t * det == Cross(w, v);
    var d := Minus(p, b.pointA);
    assert d == Point(t * u.x - w.x, t * u.y - w.y);
    CramerAlgebra(t, u.x, u.y, v.x, v.y, w.x, w.y);
    CrossOfMultiple(u, t);
    assert Minus(p, a.pointA) == Point(t * u.x, t * u.y);
  }

  /** The scalar identity behind Cramer's rule: if `t * (u × v) == w × v` then
      `v × (t·u − w) == 0`. */
  lemma CramerAlgebra(t: real, ux: real, uy: real, vx: real, vy: real, wx: real, wy: real)
    requires t * (ux * vy - uy * vx) == wx * vy - wy * vx
    ensures vx * (t * uy - wy) - vy * (t * ux - wx) == 0.0
  {
    calc {
      vx * (t * uy - wy) - vy * (t * ux - wx);
      t * (vx * uy) - vx * wy - t * (vy * ux) + vy * wx;
      -(t * (ux * vy) - t * (uy * vx)) + (wx * vy - wy * vx);
      -(t * (ux * vy - uy * vx)) + (wx * vy - wy * vx);
      0.0;
    }
  }

  /** Cramer's rule is a sound intersection routine. */
  lemma CramerIsSound()
    ensures SoundIntersection(CramerIntersection)
  {
  }
}

=== FILE: lists.dfy ===
/** Sequence operations the two tool controllers share: the `Array.prototype` calls
    `filter`, `find` and `map` (the last one restricted to a predicate, as every use of it
    in the controllers replaces or edits only the entries whose id matches). */
module Lists {
  import opened Wrappers

  /** The elements of `s` that satisfy `keep`, in their original order. */
  function Filter<T(!new)>(s: seq<T>, keep: T -> bool): (r: seq<T>)
    ensures |r| <= |s|
    ensures forall x :: x in r <==> x in s && keep(x)
  {
    if |s| == 0 then []
    else if keep(s[0]) then [s[0]] + Filter(s[1..], keep)
    else Filter(s[1..], keep)
  }

  /** Filtering distributes over concatenation: relative order is preserved. */
  lemma {:induction false} FilterAppend<T(!new)>(a: seq<T>, b: seq<T>, keep: T -> bool)
    ensures Filter(a + b, keep) == Filter(a, keep) + Filter(b, keep)
    decreases |a|
  {
    if |a| == 0 {
      assert a + b == b;
    } else {
      assert (a + b)[0] == a[0];
      assert (a + b)[1..] == a[1..] + b;
      FilterAppend(a[1..], b, keep);
    }
  }

  /** A sequence whose every element is kept comes back unchanged. */
  lemma {:induction false} FilterKeepsAll<T(!new)>(s: seq<T>, keep: T -> bool)
    requires forall i :: 0 <= i < |s| ==> keep(s[i])
    ensures Filter(s, keep) == s
    decreases |s|
  {
    if |s| > 0 {
      FilterKeepsAll(s[1..], keep);
      assert [s[0]] + s[1..] == s;
    }
  }

  /** Filtering twice with the same predicate is the same as filtering once. */
  lemma FilterIdempotent<T(!new)>(s: seq<T>, keep: T -> bool)
    ensures Filter(Filter(s, keep), keep) == Filter(s, keep)
  {
    var r := Filter(s, keep);
    forall i | 0 <= i < |r|
      ensures keep(r[i])
    {
      assert r[i] in r;
    }
    FilterKeepsAll(r, keep);
  }

  /** The position of the first element satisfying `p`, if any. */
  function IndexWhere<T>(s: seq<T>, p: T -> bool): (r: Option<nat>)
    ensures r.Some? ==> r.value < |s| && p(s[r.value])
    ensures r.Some? ==> forall j :: 0 <= j < r.value ==> !p(s[j])
    ensures r.None? ==> forall j :: 0 <= j < |s| ==> !p(s[j])
  {
    if |s| == 0 then None
    else if p(s[0]) then Some(0)
    else match IndexWhere(s[1..], p)
      case None => None
      case Some(k) => Some(k + 1)
  }

  /** The first element satisfying `p`, if any (`Array.prototype.find`). */
  function FindWhere<T(!new)>(s: seq<T>, p: T -> bool): (r: Option<T>)
    ensures r.Some? ==> r.value in s && p(r.value)
    ensures r.None? <==> forall x :: x in s ==> !p(x)
    ensures r.Some? ==> exists i :: 0 <= i < |s| && s[i] == r.value && forall j :: 0 <= j < i ==> !p(s[j])
  {
    match IndexWhere(s, p)
    case None => None
    case Some(i) => Some(s[i])
  }

  /** `s` with every element satisfying `p` replaced by `f` of it; the others are untouched. */
  function MapWhere<T>(s: seq<T>, p: T -> bool, f: T -> T): (r: seq<T>)
    ensures |r| == |s|
    ensures forall i :: 0 <= i < |s| ==> r[i] == (if p(s[i]) then f(s[i]) else s[i])
  {
    if |s| == 0 then []
    else [if p(s[0]) then f(s[0]) else s[0]] + MapWhere(s[1..], p, f)
  }
}

=== FILE: point_operation.dfy ===
/** The point tool's controller: guarded point creation, first-match hover, secondary-click
    select-or-delete, the drag lifecycle with a history entry only after a real move, and
    undo/redo and Tab cycling refused while a drag is in progress. The history store and the
    event bus are append-only logs in the state. `hoverID` and `selectedID` are optional
    because the source compares them with `===`, where `undefined` and `''` differ; a
    `Truthy` id is a present, non-empty one. */
module PointOperation {
  import opened Wrappers
  import opened Geometry
  import opened Lists
  import opened Annotation

  datatype PointUnit = PointUnit(
    x: real,
    y: real,
    id: string,
    attribute: string,
    valid: bool,
    sourceID: string,
    textAttribute: string,
    order: int,
    isVisible: bool,
    markerLabel: Option<string>)

  datatype ImgInfo = ImgInfo(width: real, height: real)

  /** The tool configuration fields the modelled code reads. */
  datatype Config = Config(
    upperLimit: Option<int>,
    drawOutsideTarget: Option<bool>,
    drawPointOut: Option<bool>,
    textConfigurable: bool)

  datatype State = State(
    pointList: seq<PointUnit>,
    hoverID: Option<string>,
    selectedID: Option<string>,
    dragStatus: DragStatus,
    defaultAttribute: string,
    markerIndex: int,
    events: seq<Event>,
    history: seq<seq<PointUnit>>)

  datatype Env = Env(
    imgInfo: Option<ImgInfo>,
    forbidMouseOperation: bool,
    zoom: Zoom,
    styleWidth: real,
    config: Config,
    hasMarkerConfig: bool,
    sourceID: string)

  /** The edge-adsorption result (`getClosestPoint`), present only when adsorption applies. */
  datatype Snap = Snap(dropFoot: Option<Point>, hasClosed: bool)

  /** The next list marker (`getNextMarker`). */
  datatype Marker = Marker(markerLabel: string, index: int)

  /** One pointer event together with what the unmodelled helpers report for it:
      `underZoom`/`inOrigin` are the converted cursor coordinates, `superConsumed` the base
      class handler's result, `outOfBoundary` is `isPointOutOfBoundary`, `pageCount` the
      length of `currentPageResult`, `outsideDependTarget` the dependency rectangle/polygon
      test, `freshID` is `uuid`, `maxOrder` is `getAllToolsMaxOrder`, `textAttribute` is
      `getTextAttribute`, `dragCoord` the clamped drag coordinate, `outsideDependPolygon`
      the drag's dependency-polygon test and `hoverMarkerIndex` is `getCurrentMarkerIndex`. */
  datatype Pointer = Pointer(
    button: int,
    ctrlKey: bool,
    underZoom: Point,
    inOrigin: Point,
    superConsumed: bool,
    outOfBoundary: bool,
    pageCount: int,
    snap: Option<Snap>,
    outsideDependTarget: bool,
    freshID: string,
    maxOrder: int,
    textAttribute: string,
    nextMarker: Option<Marker>,
    dragCoord: Point,
    outsideDependPolygon: bool,
    hoverMarkerIndex: int)

  const LeftButton: int := 0
  const RightButton: int := 2

  /** Two points closer than this (in zoomed pixels) count as the same point. */
  const MinSpacing: real := 0.2

  /** An id that is present and not empty, as JavaScript's truthiness reads it. */
  predicate Truthy(id: Option<string>) {
    id.Some? && id.value != ""
  }

  function HasId(id: Option<string>): PointUnit -> bool {
    (p: PointUnit) => Some(p.id) == id
  }

  function LacksId(id: Option<string>): PointUnit -> bool {
    (p: PointUnit) => Some(p.id) != id
  }

  /** The effective "may draw outside the image" setting: the new key, else the legacy one. */
  function DrawOutsideTarget(c: Config): (r: Option<bool>)
    ensures c.drawOutsideTarget.Some? ==> r == c.drawOutsideTarget
    ensures c.drawOutsideTarget.None? ==> r == c.drawPointOut
  {
    match c.drawOutsideTarget
    case Some(v) => Some(v)
    case None => c.drawPointOut
  }

  /** Replaces the list; a page-number notification when the length changes, then a result
      notification when uploading. */
  function SetPointList(s: State, pointList: seq<PointUnit>, isUpload: bool): (r: State)
    ensures r.pointList == pointList
    ensures s.events <= r.events
    ensures UpdatePageNumber in r.events[|s.events|..] <==> |pointList| != |s.pointList|
    ensures UpdateResult in r.events[|s.events|..] <==> isUpload
    ensures r == s.(pointList := pointList, events := r.events)
  {
    var e1 := if |s.pointList| != |pointList| then [UpdatePageNumber] else [];
    var e2 := if isUpload then [UpdateResult] else [];
    assert (s.events + e1 + e2)[|s.events|..] == e1 + e2;
    s.(pointList := pointList, events := s.events + e1 + e2)
  }

  function SetSelectedID(s: State, id: Option<string>): (r: State)
    ensures r.selectedID == id
    ensures r == s.(selectedID := id, events := s.events + [SelectedChange])
  {
    s.(selectedID := id, events := s.events + [SelectedChange])
  }

  function PushHistory(s: State, pointList: seq<PointUnit>): (r: State)
    ensures r.history == s.history + [pointList] && r.history[|s.history|] == pointList
    ensures r == s.(history := r.history)
  {
    s.(history := s.history + [pointList])
  }

  /** Changes the default attribute; when it changes and a point is selected, the selected
      points take the new attribute and the list goes to history. */
  function SetDefaultAttribute(s: State, attribute: string): (r: State)
    ensures attribute == s.defaultAttribute ==> r == s
    ensures attribute != s.defaultAttribute ==>
      && r.defaultAttribute == attribute
      && r.events == s.events + [ChangeAttributeSidebar]
      && r.selectedID == s.selectedID && r.hoverID == s.hoverID && r.dragStatus == s.dragStatus
      && |r.pointList| == |s.pointList|
      && (forall i :: 0 <= i < |s.pointList| ==>
            r.pointList[i] == if Truthy(s.selectedID) && Some(s.pointList[i].id) == s.selectedID
                              then s.pointList[i].(attribute := attribute) else s.pointList[i])
      && (Truthy(s.selectedID) ==> r.history == s.history + [r.pointList])
      && (!Truthy(s.selectedID) ==> r.history == s.history)
  {
    if attribute == s.defaultAttribute then s
    else
      var s1 := s.(defaultAttribute := attribute, events := s.events + [ChangeAttributeSidebar]);
      if Truthy(s.selectedID) then
        var l := MapWhere(s1.pointList, HasId(s.selectedID), (p: PointUnit) => p.(attribute := attribute));
        PushHistory(s1.(pointList := l), l)
      else s1
  }

  /** `pos` is within the marker radius `(width + 2) / zoom` of `p`, compared squared. */
  predicate InPoint(pos: Point, p: PointUnit, width: real, zoom: Zoom) {
    var radius := (width + 2.0) / zoom;
    radius >= 0.0 && SqDist(pos, Point(p.x, p.y)) <= radius * radius
  }

  function Near(pos: Point, width: real, zoom: Zoom): PointUnit -> bool {
    (p: PointUnit) => InPoint(pos, p, width, zoom)
  }

  /** The id of the first point, in list order, whose marker contains the cursor. */
  function GetHoverId(pointList: seq<PointUnit>, pos: Point, width: real, zoom: Zoom): (r: Option<string>)
    ensures r.Some? ==> exists i :: 0 <= i < |pointList| && pointList[i].id == r.value && InPoint(pos, pointList[i], width, zoom)
                                   && forall j :: 0 <= j < i ==> !InPoint(pos, pointList[j], width, zoom)
    ensures r.None? <==> forall i :: 0 <= i < |pointList| ==> !InPoint(pos, pointList[i], width, zoom)
  {
    match IndexWhere(pointList, Near(pos, width, zoom))
    case None => None
    case Some(i) => Some(pointList[i].id)
  }

  lemma PositiveProduct(x: real, y: real)
    requires x > 0.0 && y > 0.0
    ensures x * y > 0.0
  {
  }

  /** For non-negative reals, comparing squares is comparing the numbers. */
  lemma SquaresOrdered(a: real, b: real)
    requires a >= 0.0 && b >= 0.0
    ensures a <= b <==> a * a <= b * b
    ensures a < b <==> a * a < b * b
  {
    if a < b {
      assert b * b - a * a == (b - a) * (b + a);
      PositiveProduct(b - a, b + a);
    } else if b < a {
      assert a * a - b * b == (a - b) * (a + b);
      PositiveProduct(a - b, a + b);
    }
  }

  /** `InPoint` is the marker test `(width + 2) / zoom >= sqrt(dx² + dy²)`: given the
      distance `d` (the non-negative root of the squared distance), the two agree. */
  lemma InPointIsRadiusTest(pos: Point, p: PointUnit, width: real, zoom: Zoom, d: real)
    requires d >= 0.0 && d * d == SqDist(pos, Point(p.x, p.y))
    ensures InPoint(pos, p, width, zoom) <==> (width + 2.0) / zoom >= d
  {
    var radius := (width + 2.0) / zoom;
    if radius >= 0.0 {
      SquaresOrdered(d, radius);
    }
  }

  /** Two positions closer than `MinSpacing` once both are zoomed. */
  predicate TooCloseTo(p: PointUnit, c: Point, zoom: Zoom) {
    SqDist(Scale(Point(p.x, p.y), zoom), Scale(c, zoom)) < MinSpacing * MinSpacing
  }

  /** Some existing point lies closer than `MinSpacing` to `c` (`isMinDistance`). */
  predicate IsMinDistance(pointList: seq<PointUnit>, c: Point, zoom: Zoom) {
    exists i :: 0 <= i < |pointList| && TooCloseTo(pointList[i], c, zoom)
  }

  /** `TooCloseTo` is the spacing test `length(zoom·p, zoom·c) < 0.2`: given that length
      `d` (the non-negative root of the squared distance), the two agree. */
  lemma TooCloseIsDistanceTest(p: PointUnit, c: Point, zoom: Zoom, d: real)
    requires d >= 0.0 && d * d == SqDist(Scale(Point(p.x, p.y), zoom), Scale(c, zoom))
    ensures TooCloseTo(p, c, zoom) <==> d < MinSpacing
  {
    SquaresOrdered(d, MinSpacing);
  }

  /** `IsMinDistance` holds exactly when some point's zoomed distance to `c` is below 0.2,
      given each point's distance `dist(i)`. */
  lemma IsMinDistanceIsSome(pointList: seq<PointUnit>, c: Point, zoom: Zoom, dist: nat -> real)
    requires forall i :: 0 <= i < |pointList| ==>
      dist(i) >= 0.0 && dist(i) * dist(i) == SqDist(Scale(Point(pointList[i].x, pointList[i].y), zoom), Scale(c, zoom))
    ensures IsMinDistance(pointList, c, zoom) <==> exists i :: 0 <= i < |pointList| && dist(i) < MinSpacing
  {
    forall i | 0 <= i < |pointList|
      ensures TooCloseTo(pointList[i], c, zoom) <==> dist(i) < MinSpacing
    {
      TooCloseIsDistanceTest(pointList[i], c, zoom, dist(i));
    }
  }

  /** The upper limit is set (non-zero) and both the page and the list have reached it. */
  predicate UpperLimitReached(limit: Option<int>, pageCount: int, listLength: int) {
    limit.Some? && limit.value != 0 && pageCount >= limit.value && listLength >= limit.value
  }

  predicate OutOfImage(c: Point, img: ImgInfo) {
    c.x < 0.0 || c.y < 0.0 || c.x > img.width || c.y > img.height
  }

  /** Where a new point goes: the adsorbed drop foot when there is one, else the cursor. */
  function CreateCoordinate(e: Pointer): (r: Point)
    ensures e.snap.Some? && e.snap.value.dropFoot.Some? ==> r == e.snap.value.dropFoot.value
    ensures !(e.snap.Some? && e.snap.value.dropFoot.Some?) ==> r == e.inOrigin
  {
    if e.snap.Some? && e.snap.value.dropFoot.Some? then e.snap.value.dropFoot.value else e.inOrigin
  }

  /** The reasons `createPoint` adds nothing. */
  predicate CreateRejected(s: State, e: Pointer, env: Env) {
    || env.imgInfo.None?
    || UpperLimitReached(env.config.upperLimit, e.pageCount, |s.pointList|)
    || (DrawOutsideTarget(env.config) == Some(false) && (e.outsideDependTarget || OutOfImage(e.underZoom, env.imgInfo.value)))
    || IsMinDistance(s.pointList, CreateCoordinate(e), env.zoom)
    || (env.hasMarkerConfig && e.nextMarker.None?)
  }

  /** Appends the point, makes it hovered and selected, and records the list in history. */
  function AddPoint(s: State, p: PointUnit): (r: State)
    ensures r.pointList == s.pointList + [p]
    ensures r.hoverID == Some(p.id) && r.selectedID == Some(p.id)
    ensures r.history == s.history + [r.pointList]
    ensures r.events == s.events + [UpdatePageNumber, SelectedChange]
    ensures r.dragStatus == s.dragStatus && r.markerIndex == s.markerIndex && r.defaultAttribute == s.defaultAttribute
  {
    var l := s.pointList + [p];
    var s1 := SetPointList(s.(hoverID := Some(p.id)), l, false);
    assert s1.events == s.events + [UpdatePageNumber];
    SetSelectedID(PushHistory(s1, l), Some(p.id))
  }

  function CreatePoint(s: State, e: Pointer, env: Env): (r: State)
    ensures CreateRejected(s, e, env) ==>
      && r.pointList == s.pointList && r.history == s.history
      && r.selectedID == s.selectedID && r.hoverID == s.hoverID
    ensures !CreateRejected(s, e, env) ==>
      var c := CreateCoordinate(e);
      && |r.pointList| == |s.pointList| + 1
      && r.pointList[..|s.pointList|] == s.pointList
      && var p := r.pointList[|s.pointList|];
      && p.x == c.x && p.y == c.y
      && p.id == e.freshID && p.valid == !e.ctrlKey && p.order == e.maxOrder + 1
      && p.attribute == s.defaultAttribute && p.sourceID == env.sourceID
      && p.textAttribute == (if env.config.textConfigurable then e.textAttribute else "")
      && (env.hasMarkerConfig ==> p.markerLabel == Some(e.nextMarker.value.markerLabel) && r.markerIndex == e.nextMarker.value.index)
      && r.hoverID == Some(e.freshID) && r.selectedID == Some(e.freshID)
      && r.history == s.history + [r.pointList]
    ensures r.dragStatus == s.dragStatus
  {
    if env.imgInfo.None? then s
    else if UpperLimitReached(env.config.upperLimit, e.pageCount, |s.pointList|) then
      s.(events := s.events + [MessageInfo])
    else
      var c := CreateCoordinate(e);
      var s0 := if e.snap.Some? && e.snap.value.hasClosed then s.(events := s.events + [MessageSuccess]) else s;
      if DrawOutsideTarget(env.config) == Some(false) && (e.outsideDependTarget || OutOfImage(e.underZoom, env.imgInfo.value)) then s0
      else if IsMinDistance(s.pointList, c, env.zoom) then s0
      else
        var text := if env.config.textConfigurable then e.textAttribute else "";
        var p := PointUnit(c.x, c.y, e.freshID, s.defaultAttribute, !e.ctrlKey, env.sourceID, text, e.maxOrder + 1, true, None);
        if env.hasMarkerConfig then
          match e.nextMarker
          case None => s0.(events := s0.events + [MessageInfo])
          case Some(m) =>
            AddPoint(s0.(markerIndex := m.index, events := s0.events + [MarkIndexChange]), p.(markerLabel := Some(m.markerLabel)))
        else AddPoint(s0, p)
  }

  /** A secondary release: on the selected point it deletes every point with that id and
      clears selection and hover; elsewhere it selects what is hovered and adopts its
      attribute as the default. */
  /** The attribute a selecting secondary release adopts as the default: that of the first
      hovered point, or `""` (the parameter default) when no point carries the hover id. */
  function HoverAttribute(s: State): string {
    match FindWhere(s.pointList, HasId(s.hoverID))
    case Some(p) => p.attribute
    case None => ""
  }

  /** A selecting secondary release moves the marker index to the hovered point's label. */
  predicate AdoptsMarker(s: State, e: Pointer, env: Env) {
    var hoverPoint := FindWhere(s.pointList, HasId(s.hoverID));
    hoverPoint.Some? && Truthy(hoverPoint.value.markerLabel) && env.hasMarkerConfig && e.hoverMarkerIndex >= 0
  }

  function RightMouseUp(s: State, e: Pointer, env: Env): (r: State)
    ensures s.selectedID == s.hoverID ==>
      && r.pointList == Filter(s.pointList, LacksId(s.selectedID))
      && r.selectedID == Some("") && r.hoverID == Some("")
      && r.history == s.history + [r.pointList]
      && r.events == s.events + (if |r.pointList| != |s.pointList| then [UpdatePageNumber] else []) + [SelectedChange]
      && r.defaultAttribute == s.defaultAttribute && r.markerIndex == s.markerIndex
    ensures s.selectedID != s.hoverID ==>
      var attr := HoverAttribute(s);
      var restyle := attr != s.defaultAttribute && Truthy(s.hoverID);
      && r.selectedID == s.hoverID && r.hoverID == s.hoverID
      && r.defaultAttribute == attr
      && |r.pointList| == |s.pointList|
      && (forall i :: 0 <= i < |s.pointList| ==>
            r.pointList[i] == if restyle && Some(s.pointList[i].id) == s.hoverID
                              then s.pointList[i].(attribute := attr) else s.pointList[i])
      && (restyle ==> r.history == s.history + [r.pointList])
      && (!restyle ==> r.history == s.history)
      && r.events == s.events + [SelectedChange]
                     + (if attr != s.defaultAttribute then [ChangeAttributeSidebar] else [])
                     + (if AdoptsMarker(s, e, env) then [MarkIndexChange] else [])
      && r.markerIndex == (if AdoptsMarker(s, e, env) then e.hoverMarkerIndex else s.markerIndex)
    ensures r.dragStatus == s.dragStatus
  {
    if s.selectedID == s.hoverID then
      var l := Filter(s.pointList, LacksId(s.selectedID));
      var s1 := PushHistory(SetPointList(s, l, false), l);
      SetSelectedID(s1, Some("")).(hoverID := Some(""))
    else
      var s1 := SetSelectedID(s, s.hoverID);
      var s2 := SetDefaultAttribute(s1, HoverAttribute(s));
      if AdoptsMarker(s, e, env) then
        s2.(markerIndex := e.hoverMarkerIndex, events := s2.events + [MarkIndexChange])
      else s2
  }

  /** Deletes every point carrying the selected id; the selection itself is kept. */
  function DeletePoint(s: State): (r: State)
    ensures !Truthy(s.selectedID) ==> r == s
    ensures Truthy(s.selectedID) ==>
      && (forall p :: p in r.pointList <==> p in s.pointList && Some(p.id) != s.selectedID)
      && r.pointList == Filter(s.pointList, LacksId(s.selectedID))
      && r.selectedID == s.selectedID
      && r.history == s.history + [r.pointList]
      && |r.events| > 0 && r.events[|r.events| - 1] == SelectedChange
      && r.events == s.events + (if |r.pointList| != |s.pointList| then [UpdatePageNumber] else []) + [SelectedChange]
      && r == s.(pointList := r.pointList, history := r.history, events := r.events)
  {
    if Truthy(s.selectedID) then
      var l := Filter(s.pointList, LacksId(s.selectedID));
      var s1 := PushHistory(SetPointList(s, l, false), l);
      s1.(events := s1.events + [SelectedChange])
    else s
  }

  /** A press: on an empty spot a primary press creates a point (unless there is no image or
      the press is out of bounds where that is refused); on the hovered, selected point it
      starts a drag. */
  function OnMouseDown(s: State, e: Pointer, env: Env): (r: State)
    ensures e.superConsumed || env.forbidMouseOperation ==> r == s
    ensures !e.superConsumed && !env.forbidMouseOperation && e.button == LeftButton && !Truthy(s.hoverID) ==>
      if env.imgInfo.None? || (env.config.drawOutsideTarget == Some(true) && e.outOfBoundary) then r == s
      else r == CreatePoint(s, e, env)
    ensures !e.superConsumed && !env.forbidMouseOperation && !(e.button == LeftButton && !Truthy(s.hoverID)) ==>
      if e.button == LeftButton && s.hoverID == s.selectedID then r == s.(dragStatus := Start) else r == s
  {
    if e.superConsumed || env.forbidMouseOperation then s
    else if e.button == LeftButton && !Truthy(s.hoverID) then
      if env.imgInfo.None? || (env.config.drawOutsideTarget == Some(true) && e.outOfBoundary) then s
      else CreatePoint(s, e, env)
    else if s.hoverID == s.selectedID && e.button == LeftButton then s.(dragStatus := Start)
    else s
  }

  /** A drag move: the drag is now moving, and the selected points go to the drag
      coordinate unless a dependency polygon refuses it. */
  function OnDragMove(s: State, e: Pointer, env: Env): (r: State)
    ensures env.imgInfo.None? ==> r == s
    ensures env.imgInfo.Some? ==>
      && r.dragStatus == Move
      && |r.pointList| == |s.pointList|
      && (forall i :: 0 <= i < |s.pointList| && Some(s.pointList[i].id) != s.selectedID ==> r.pointList[i] == s.pointList[i])
      && (forall i :: 0 <= i < |s.pointList| ==> r.pointList[i] == s.pointList[i].(x := r.pointList[i].x, y := r.pointList[i].y))
      && (!(DrawOutsideTarget(env.config) == Some(false) && e.outsideDependPolygon) ==>
            forall i :: 0 <= i < |s.pointList| && Some(s.pointList[i].id) == s.selectedID ==>
              r.pointList[i].x == e.dragCoord.x && r.pointList[i].y == e.dragCoord.y)
      && (DrawOutsideTarget(env.config) == Some(false) && e.outsideDependPolygon ==> r == s.(dragStatus := Move))
      && r == s.(dragStatus := Move, pointList := r.pointList)
  {
    if env.imgInfo.None? then s
    else
      var s1 := s.(dragStatus := Move);
      if DrawOutsideTarget(env.config) == Some(false) && e.outsideDependPolygon then s1
      else
        s1.(pointList := MapWhere(s.pointList, HasId(s.selectedID), (p: PointUnit) => p.(x := e.dragCoord.x, y := e.dragCoord.y)))
  }

  /** A move refreshes the hover and, while a drag is in progress, moves the selection. */
  function OnMouseMove(s: State, e: Pointer, env: Env): (r: State)
    ensures e.superConsumed || env.forbidMouseOperation || env.imgInfo.None? ==> r == s
    ensures !e.superConsumed && !env.forbidMouseOperation && env.imgInfo.Some? ==>
      && r.hoverID == GetHoverId(s.pointList, e.inOrigin, env.styleWidth, env.zoom)
      && (Dragging(s.dragStatus) ==> r == OnDragMove(s.(hoverID := r.hoverID), e, env))
      && (!Dragging(s.dragStatus) ==> r == s.(hoverID := r.hoverID))
  {
    if e.superConsumed || env.forbidMouseOperation || env.imgInfo.None? then s
    else
      var s1 := s.(hoverID := GetHoverId(s.pointList, e.inOrigin, env.styleWidth, env.zoom));
      if Dragging(s1.dragStatus) then OnDragMove(s1, e, env) else s1
  }

  /** A release: a secondary release selects or deletes; the list goes to history only if
      the drag actually moved; the drag is over either way. */
  function OnMouseUp(s: State, e: Pointer, env: Env): (r: State)
    ensures e.superConsumed || env.forbidMouseOperation || env.imgInfo.None? ==> r == s
    ensures !e.superConsumed && !env.forbidMouseOperation && env.imgInfo.Some? ==>
      var s1 := if e.button == RightButton then RightMouseUp(s, e, env) else s;
      && r.dragStatus == Wait
      && r.pointList == s1.pointList
      && r.selectedID == s1.selectedID && r.hoverID == s1.hoverID && r.events == s1.events
      && r.markerIndex == s1.markerIndex && r.defaultAttribute == s1.defaultAttribute
      && (s.dragStatus == Move ==> r.history == s1.history + [s1.pointList])
      && (s.dragStatus != Move ==> r.history == s1.history)
  {
    if e.superConsumed || env.forbidMouseOperation || env.imgInfo.None? then s
    else
      var s1 := if e.button == RightButton then RightMouseUp(s, e, env) else s;
      var s2 := if s1.dragStatus == Move then PushHistory(s1, s1.pointList) else s1;
      s2.(dragStatus := Wait)
  }

  /** A restored list exists and contains a point with the given id. */
  predicate Holds(restored: Option<seq<PointUnit>>, id: Option<string>) {
    restored.Some? && exists i :: 0 <= i < |restored.value| && Some(restored.value[i].id) == id
  }

  /** Undo or redo, given what the history store returns. Refused during a drag. The
      selection is cleared unless the restored list holds the selected id, and is cleared
      too when the store has nothing to restore. */
  function UndoAndRedo(s: State, restored: Option<seq<PointUnit>>): (r: State)
    ensures Dragging(s.dragStatus) ==> r == s
    ensures !Dragging(s.dragStatus) ==>
      && (restored.Some? ==> r.pointList == restored.value && UpdateResult in r.events)
      && (restored.None? ==> r.pointList == s.pointList)
      && (Holds(restored, s.selectedID) ==> r.selectedID == s.selectedID)
      && (!Holds(restored, s.selectedID) ==> r.selectedID == Some(""))
      && r.history == s.history && r.dragStatus == s.dragStatus
      && r.events == s.events
                     + (if !Holds(restored, s.selectedID) then [SelectedChange] else [])
                     + (if restored.Some? && |restored.value| != |s.pointList| then [UpdatePageNumber] else [])
                     + (if restored.Some? then [UpdateResult] else [])
      && r == s.(pointList := r.pointList, selectedID := r.selectedID, events := r.events)
  {
    if Dragging(s.dragStatus) then s
    else
      var s1 := if !Holds(restored, s.selectedID) then SetSelectedID(s, Some("")) else s;
      if restored.Some? then
        var s2 := SetPointList(s1, restored.value, true);
        assert UpdateResult in s2.events[|s1.events|..];
        s2
      else s1
  }

  /** Tab selects the next point (as chosen by `getNextSelectedRectID`), except during a drag. */
  function OnTabKeyDown(s: State, next: Option<string>): (r: State)
    ensures Dragging(s.dragStatus) || next.None? ==> r == s
    ensures !Dragging(s.dragStatus) && next.Some? ==> r.selectedID == next && r.pointList == s.pointList
    ensures !Dragging(s.dragStatus) && next.Some? ==> r == s.(selectedID := next, events := s.events + [SelectedChange])
  {
    if Dragging(s.dragStatus) then s
    else if next.Some? then SetSelectedID(s, next)
    else s
  }

  // ---------------------------------------------------------------------------------------
  // Properties of the controller

  /** No two points of the list lie closer than `MinSpacing` (zoomed) to each other. */
  predicate WellSpaced(pointList: seq<PointUnit>, zoom: Zoom) {
    forall i, j :: 0 <= i < j < |pointList| ==> !TooCloseTo(pointList[i], Point(pointList[j].x, pointList[j].y), zoom)
  }

  /** Creating a point never puts it within `MinSpacing` of an existing one, so a list
      built only by clicking keeps its points apart. */
  lemma CreateKeepsSpacing(s: State, e: Pointer, env: Env)
    requires WellSpaced(s.pointList, env.zoom)
    ensures WellSpaced(CreatePoint(s, e, env).pointList, env.zoom)
  {
    var l := CreatePoint(s, e, env).pointList;
    if !CreateRejected(s, e, env) {
      var n := |s.pointList|;
      forall i, j | 0 <= i < j < |l|
        ensures !TooCloseTo(l[i], Point(l[j].x, l[j].y), env.zoom)
      {
        assert l[i] == s.pointList[i];
        if j < n {
          assert l[j] == s.pointList[j];
        } else {
          assert Point(l[j].x, l[j].y) == CreateCoordinate(e);
          assert !IsMinDistance(s.pointList, CreateCoordinate(e), env.zoom);
        }
      }
    }
  }

  /** A press on the hovered, selected point, one move, one primary release: the press
      starts the drag, the move moves exactly the selected points to the drag coordinate,
      the release records the moved list in history once and ends the drag; undo, redo and
      Tab change nothing while the drag is in progress. */
  lemma DragLifecycle(s: State, press: Pointer, move: Pointer, release: Pointer, env: Env, restored: Option<seq<PointUnit>>, next: Option<string>)
    requires env.imgInfo.Some? && !env.forbidMouseOperation
    requires Truthy(s.hoverID) && s.hoverID == s.selectedID && s.dragStatus == Wait
    requires !press.superConsumed && press.button == LeftButton
    requires !move.superConsumed
    requires !(DrawOutsideTarget(env.config) == Some(false) && move.outsideDependPolygon)
    requires !release.superConsumed && release.button == LeftButton
    ensures
      var s1 := OnMouseDown(s, press, env);
      var s2 := OnMouseMove(s1, move, env);
      var s3 := OnMouseUp(s2, release, env);
      && s1.dragStatus == Start && s1.pointList == s.pointList && s1.history == s.history
      && UndoAndRedo(s1, restored) == s1
      && s2.dragStatus == Move && s2.history == s.history
      && UndoAndRedo(s2, restored) == s2
      && OnTabKeyDown(s1, next) == s1 && OnTabKeyDown(s2, next) == s2
      && |s2.pointList| == |s.pointList|
      && (forall i :: 0 <= i < |s.pointList| ==>
            s2.pointList[i] == if Some(s.pointList[i].id) == s.selectedID
                               then s.pointList[i].(x := move.dragCoord.x, y := move.dragCoord.y)
                               else s.pointList[i])
      && s3.dragStatus == Wait && s3.pointList == s2.pointList
      && s3.history == s.history + [s2.pointList]
  {
    var s1 := OnMouseDown(s, press, env);
    assert s1 == s.(dragStatus := Start);
    var s2 := OnMouseMove(s1, move, env);
    var h := GetHoverId(s.pointList, move.inOrigin, env.styleWidth, env.zoom);
    assert s2 == OnDragMove(s1.(hoverID := h), move, env);
    forall i | 0 <= i < |s.pointList|
      ensures s2.pointList[i] == if Some(s.pointList[i].id) == s.selectedID
                                 then s.pointList[i].(x := move.dragCoord.x, y := move.dragCoord.y)
                                 else s.pointList[i]
    {
    }
  }

  /** A press and release on the selected point with no move in between leaves the list
      and the history as they were. */
  lemma ClickWithoutMoveRecordsNothing(s: State, press: Pointer, release: Pointer, env: Env)
    requires env.imgInfo.Some? && !env.forbidMouseOperation
    requires Truthy(s.hoverID) && s.hoverID == s.selectedID && s.dragStatus == Wait
    requires !press.superConsumed && press.button == LeftButton
    requires !release.superConsumed && release.button == LeftButton
    ensures
      var s2 := OnMouseUp(OnMouseDown(s, press, env), release, env);
      s2.dragStatus == Wait && s2.pointList == s.pointList && s2.history == s.history
  {
  }

  /** Two secondary releases over the same unselected point: the first selects it, the
      second deletes every point with its id and clears selection and hover; every other
      point survives unchanged. */
  lemma SelectThenDelete(s: State, first: Pointer, second: Pointer, env: Env)
    requires env.imgInfo.Some? && !env.forbidMouseOperation
    requires Truthy(s.hoverID) && s.selectedID != s.hoverID && s.dragStatus == Wait
    requires !first.superConsumed && first.button == RightButton
    requires !second.superConsumed && second.button == RightButton
    ensures
      var s1 := OnMouseUp(s, first, env);
      var s2 := OnMouseUp(s1, second, env);
      && s1.selectedID == s.hoverID
      && (forall p :: p in s2.pointList <==> p in s.pointList && Some(p.id) != s.hoverID)
      && s2.selectedID == Some("") && s2.hoverID == Some("")
  {
    var s1 := OnMouseUp(s, first, env);
    var s2 := OnMouseUp(s1, second, env);
    assert s1.pointList == RightMouseUp(s, first, env).pointList;
    assert s1.selectedID == s1.hoverID == s.hoverID;
    assert s2.pointList == Filter(s1.pointList, LacksId(s.hoverID));
    forall p
      ensures p in s2.pointList <==> p in s.pointList && Some(p.id) != s.hoverID
    {
      if p in s.pointList && Some(p.id) != s.hoverID {
        var i :| 0 <= i < |s.pointList| && s.pointList[i] == p;
        assert s1.pointList[i] == p;
      }
      if p in s1.pointList && Some(p.id) != s.hoverID {
        var i :| 0 <= i < |s1.pointList| && s1.pointList[i] == p;
        assert s1.pointList[i] == s.pointList[i].(attribute := s1.pointList[i].attribute);
        assert s.pointList[i].id == p.id;
        assert s1.pointList[i] == s.pointList[i];
      }
    }
  }
}

=== FILE: wrappers.dfy ===
/** The optional value used wherever the source returns or stores `undefined`. */
module Wrappers {

  datatype Option<+T> = None | Some(value: T)
}
